=== FILE: README.md ===
# Storefront model

A Dafny model of the request handlers of a small Flask shop (`ecomWeb/project3`).

Customers sign up, log in and change their password. They fill a cart, adjust and remove cart lines, check out through a payment provider and see their orders. An administrator maintains the catalogue and moves orders through their statuses; the administrator is the customer whose id is 1.

The database is an immutable `Store` of four tables: customers, products, cart lines and orders. Each table maps an auto-incremented key to a row. Every handler is a pure function of the store, the acting customer and the request. A handler that writes returns a `Step`: the store after the request, plus an `Outcome`. A read-only handler returns only its result: an `Outcome` for the cart page, the checkout items and the two admin listings, the customer's key for log-in, and the list of order keys for the order history.

An `Outcome` is one of:
- `Ok` with the page's data;
- `Fail(NotFound)`: the not-found page;
- `Fail(Crash)`: an uncaught exception, after which nothing uncommitted is kept;
- `Fail(Rejected(message))`: a caught failure, reported with its flash message.

Modules:

- `Tables`: keyed tables with an insertion counter, and the ordered `filter_by(...).all()` query (`All`/`Select`). A query lists its keys in ascending order.
- `Models`: the four entities, their column defaults and nullability, `verify_password`, and the store invariant `Valid`. The invariant says:
  - keys are in range;
  - email addresses are unique;
  - a customer has at most one cart line per product;
  - every link resolves.
- `Forms`: the WTForms validators as predicates over the submitted fields, the product form, and the order-status choice list.
- `Views`: the customer-facing handlers. These are adding to the cart, the cart page, the plus, minus and remove buttons, building the checkout line items, recording a paid cart as orders, the payment-success callback, and the order history.
- `Admin`: the catalogue, order and customer-list handlers behind the `id == 1` gate.
- `Authen`: sign-up, log-in and change of password.

Several things outside the program are parameters rather than part of the model:
- Password hashing is a function parameter `hash`; a stored hash `h` checks against `p` exactly when `h == hash(p)`.
- Email-address syntax is a predicate parameter `validEmail`.
- `secure_filename` is a function parameter `sanitize`.
- The clock is an integer `now`.
- Whether a commit inside a `try` succeeds is a boolean `commitOk`.
- The payment provider's answers are inputs: a flag for session creation, and the retrieved payment id.

Prices are Dafny `real`. `int(price * 100)` is truncation toward zero (`Views.Trunc`).

Behaviour of the program that the model keeps as it is:
- The cart page adds a shipping fee of 100, while the JSON answers of the plus, minus and remove buttons add 200. The two constants are kept apart (`CART_PAGE_SHIPPING`, `CART_JSON_SHIPPING`).
- A product cannot be deleted while a cart line or an order still refers to it: the mapper nulls the child rows' product link, the NOT NULL column makes the commit fail, and the handler reports "item not deleted".
- Orders are written with the status "Paid", which is not one of the order form's choices. Once an administrator changes that status, no submission can set it back.
- The minus button has no lower bound, so a quantity can reach 0 and go below it.

## Model

| member | source | states |
|---|---|---|
| Models.NewCartLine | ecomWeb/project3/models.py:39-46 | A new cart line has quantity 0, the column default, and the two links it is given. |
| Models.NewProduct | ecomWeb/project3/models.py:21-36 | A new product has the given name and both prices; no description and no picture; stock 0; not on flash sale; and the creation time as its date added. |
| Models.LinesOfExactly | ecomWeb/project3/views.py:62 | The query of a customer's cart lists a key exactly when that line exists and belongs to the customer. |
| Models.VerifyPasswordStored | ecomWeb/project3/models.py:19-20 | `verify_password` accepts the password the stored hash was made from, and exactly the passwords that hash alike. |
| Forms.SignupValidMeans | ecomWeb/project3/forms.py:7-12 | The sign-up form is valid exactly when all of these hold: the email has content and the right syntax; the username has content and 2 to 20 characters; the password has content and at least 6 characters; the confirmation equals the password. |
| Forms.LoginValidMeans | ecomWeb/project3/forms.py:16-21 | The log-in form is valid exactly when the email has content and the right syntax, and the password has content and at least 6 characters. |
| Forms.ChangePasswordValidMeans | ecomWeb/project3/forms.py:23-27 | The change-password form is valid exactly when the current password has content, the new one has content and at least 6 characters, and the confirmation equals the new one. |
| Forms.ShopItemsValid | ecomWeb/project3/forms.py:29-38 | A valid product form carries a name and values for both prices, the stock and the picture. A price or stock submitted as zero makes the form invalid. |
| Forms.ShopItemsValidMeans | ecomWeb/project3/forms.py:29-38 | A valid product form has a name and all four required values. The sale flag never affects validity. A stock of 0 counts as missing data. |
| Forms.ParseStatus | ecomWeb/project3/forms.py:41-46 | A submitted status is accepted exactly when it is one of the five choices, and it reads back as the status with that label. |
| Forms.StatusRoundTrip | ecomWeb/project3/forms.py:41-46 | Every status's label is on the choice list and parses back to the same status. |
| Forms.OrdersFormValid | ecomWeb/project3/forms.py:41-46 | The order form is valid exactly when the submitted status parses as one of the five choices, so "Paid" is never accepted. |
| Views.AddToCart | ecomWeb/project3/views.py:21-56 | An unknown product is not found and changes nothing. For a known product the request succeeds exactly when the commit does; a failed commit changes nothing and reports the update or add failure. Only the cart table ever changes. |
| Views.AddToCartExisting | ecomWeb/project3/views.py:28-35 | When the customer already has a line for the product, that line's quantity rises by exactly 1, no line is created and every other line is unchanged. |
| Views.AddToCartNew | ecomWeb/project3/views.py:41-50 | Otherwise exactly one line is created: quantity 1, this customer and this product, under the next key. Existing lines are unchanged. |
| Views.AddToCartKeepsValid | ecomWeb/project3/views.py:28-54 | Adding to the cart preserves the store invariant, in particular at most one line per customer and product. |
| Views.AddToCartAmountExisting | ecomWeb/project3/views.py:30-33 | Adding a product already in the cart raises the cart amount by that product's current price. |
| Views.AddToCartAmountNew | ecomWeb/project3/views.py:41-49 | Adding a product not yet in the cart raises the cart amount by that product's current price. |
| Views.AddTwiceOneLine | ecomWeb/project3/views.py:28-50 | Adding the same product twice to a cart without it leaves one line for it, with quantity 2. |
| Views.CartView | ecomWeb/project3/views.py:59-68 | The cart page lists only the customer's own lines, and the total is the amount plus the shipping fee of 100. It fails only when a line's product is missing. |
| Views.CartViewListsCart | ecomWeb/project3/views.py:62-68 | On a consistent store the page lists exactly the customer's lines, and its amount is the sum of current price times quantity over them. |
| Views.SumCart | ecomWeb/project3/views.py:64-67 | The loop that starts at 0 and adds current price times quantity for each line, in query order, ends with the amount of those lines. |
| Views.AmountAppend | ecomWeb/project3/views.py:65-67 | One more line raises the amount by exactly that line's current price times its quantity. |
| Views.CartAmountNonNegative | ecomWeb/project3/views.py:64-67 | With no negative price and no quantity below zero, a cart's amount is never negative. |
| Views.Bump | ecomWeb/project3/views.py:73-91 | A missing or absent `cart_id` fails and changes nothing. Otherwise only that line's quantity moves by the step; keys, counter and every other row are unchanged. The answer carries the new quantity, the amount over the selected lines, and the total as amount plus 200. |
| Views.PlusCart | ecomWeb/project3/views.py:70-91 | Plus raises the target line's quantity by exactly 1, with no ownership check. Its amount sums the lines whose product key equals the customer's id. |
| Views.MinusCart | ecomWeb/project3/views.py:94-115 | Minus lowers the target line's quantity by exactly 1, with no ownership check. Its amount sums the lines whose product key equals the customer's id. |
| Views.BumpKeepsValid | ecomWeb/project3/views.py:74-77 | The plus and minus buttons preserve the store invariant. |
| Views.PlusCartRaisesCartAmount | ecomWeb/project3/views.py:74-77 | Pressing plus on one of the customer's lines raises their cart amount by that product's price. |
| Views.MinusCartLowersCartAmount | ecomWeb/project3/views.py:98-101 | Pressing minus on one of the customer's lines lowers their cart amount by that product's price. |
| Views.MinusCartBelowZero | ecomWeb/project3/views.py:100 | A line with quantity 0 goes to -1: minus has no lower bound. |
| Views.PlusCartWrongAmount | ecomWeb/project3/views.py:79-89 | In a concrete store, plus reports an amount of 30 and a total of 230, while the customer's cart is worth 10. |
| Views.PlusCartFixed | ecomWeb/project3/views.py:79 | With the filter on the customer, the store changes as before and the reported amount is the customer's cart amount. |
| Views.MinusCartFixed | ecomWeb/project3/views.py:103 | With the filter on the customer, the store changes as before and the reported amount is the customer's cart amount. |
| Views.PlusCartFixedReportsCart | ecomWeb/project3/views.py:79-89 | The corrected plus reports the old cart amount plus the product's price, and that amount plus 200 as the total. |
| Views.RemoveItem | ecomWeb/project3/views.py:117-139 | Only a line that exists and belongs to the customer is deleted, and every other row is kept. The answer carries the removed quantity and a total of amount plus 200. Otherwise the request fails and changes nothing. |
| Views.RemoveItemSparesOthers | ecomWeb/project3/views.py:121-125 | Another customer's line is never deleted or altered. |
| Views.RemoveItemKeepsValid | ecomWeb/project3/views.py:121-125 | Removing a line preserves the store invariant. |
| Views.RemoveItemAmount | ecomWeb/project3/views.py:127-137 | Removing one of the customer's lines lowers the cart amount by that line's total, and the answer reports the new cart amount. |
| Views.RemoveItemTwiceFails | ecomWeb/project3/views.py:121-134 | Removing the same line twice fails the second time, because `quantity` is never bound. |
| Views.RemoveItemFixed | ecomWeb/project3/views.py:121-137 | With `quantity` bound to 0 first, a missing or foreign line changes nothing and is answered with quantity 0 and the current cart amount. |
| Views.RemoveItemFixedTwice | ecomWeb/project3/views.py:121-137 | With the correction, a second removal succeeds, changes nothing and reports quantity 0 with the same amount. |
| Views.Trunc | ecomWeb/project3/views.py:169 | `int(x)` truncates toward zero: the result is the integer within distance 1 of `x` on the side of 0. |
| Views.DescriptionOf | ecomWeb/project3/views.py:167 | A line item carries the product's description when it is non-empty, and "NO Description Available" otherwise. |
| Views.ItemFor | ecomWeb/project3/views.py:162-172 | A line item is in "usd" and carries the product's name and the line's quantity. Its description is the product's, or the placeholder when there is none. Its unit amount is the price in whole cents, truncated toward zero for both signs, as `int()` does: a fraction of a cent is dropped from a positive price and from a negative one alike. |
| Views.BuildItems | ecomWeb/project3/views.py:155-172 | Items are built exactly when every line's product exists. In that case there is one item per line, in cart order, with the product's name and description, `trunc(price * 100)` and the line's quantity. |
| Views.CreateCheckoutSession | ecomWeb/project3/views.py:146-188 | An empty cart is refused with "Your cart is empty!". A missing product is refused with "One of your products no longer exists.". Otherwise the request succeeds exactly when the provider answers, and a provider failure reports "Payment failed. Please contact support.". Success means one item per cart line, in order, in "usd", with that line's quantity and its product's name, description and unit amount. |
| Views.CheckoutExampleCart | ecomWeb/project3/views.py:62-68 | Two lamps at 10 and one mug at 5 give an amount of 25 and a total of 125. |
| Views.CheckoutExampleItems | ecomWeb/project3/views.py:155-172 | Those lines become items at 1000 and 500 cents. The mug, which has no description, gets the placeholder. |
| Views.OrderFor | ecomWeb/project3/views.py:201-208 | The order for a cart line is priced at its product's current catalogue price times the line's quantity. It carries that quantity, the payment id, the status "Paid", the paying customer and the line's product. |
| Views.RevenueIsAmount | ecomWeb/project3/views.py:199-208 | The prices of the orders made from a cart add up to the cart's amount. |
| Views.RecordPayment | ecomWeb/project3/views.py:199-215 | Recording a payment changes neither customers nor products. It fails, changing nothing, exactly when one of the customer's lines names a missing product, so on a store whose links resolve it always succeeds. On success it creates as many orders as the customer had lines. |
| Views.RecordPaymentOrders | ecomWeb/project3/views.py:199-209 | The orders are created under consecutive new keys: the i-th order captures the i-th line's total and quantity, the payment id, "Paid" and both links. Existing orders are kept, and no other order appears. |
| Views.RecordPaymentEmptiesCart | ecomWeb/project3/views.py:211-215 | Afterwards the customer's cart is empty. Other customers' lines are unchanged, and no line is created. |
| Views.RecordPaymentRevenue | ecomWeb/project3/views.py:199-215 | The new orders' prices add up to the cart amount the customer was shown. |
| Views.NewOrderResolves | ecomWeb/project3/views.py:201-208 | Every new order belongs to the paying customer and names an existing product. |
| Views.RecordPaymentKeepsValid | ecomWeb/project3/views.py:199-215 | Recording a payment preserves the store invariant. |
| Views.PaymentSuccess | ecomWeb/project3/views.py:190-219 | As written, the callback never changes the store. It renders the page without recording exactly when there is no `id` argument, and fails otherwise. |
| Views.PaymentSuccessNeverRecords | ecomWeb/project3/views.py:179-194 | Called with the arguments the success address actually carries, the callback records no order. |
| Views.PaymentSuccessFixed | ecomWeb/project3/views.py:190-219 | Reading `session_id`: with no token nothing happens. A failed retrieval fails. Otherwise the cart is recorded with the retrieved payment id. |
| Views.PaymentSuccessFixedRecords | ecomWeb/project3/views.py:199-215 | With the correction, a non-empty cart is turned into one order per line and emptied. |
| Views.OrderHistory | ecomWeb/project3/views.py:221-226 | The order page lists only the customer's orders, and every one of them. |
| Admin.PicturePath | ecomWeb/project3/admin.py:32 | A stored picture path is "/static/media/" followed by the sanitised file name. |
| Admin.NewShopItem | ecomWeb/project3/admin.py:35-40 | A new product takes the form's name, prices, stock and picture path. Its description stays empty, its sale flag keeps the default false, and its date added is now. |
| Admin.AddShopItems | ecomWeb/project3/admin.py:15-56 | Non-admins get the not-found page and change nothing. A product is added, under the next key, exactly when an admin posts a valid form and the commit succeeds. A failed commit reports "item not added". A GET or an invalid submission only shows the form. Every case but the success changes nothing. |
| Admin.AddShopItemsKeepsValid | ecomWeb/project3/admin.py:44-46 | Adding a product preserves the store invariant, and at most the one new key appears. |
| Admin.AddShopItemsIgnoresSale | ecomWeb/project3/admin.py:24-40 | The submitted sale flag makes no difference to the result, and a new product is never on flash sale. |
| Admin.AddShopItemsFixed | ecomWeb/project3/admin.py:15-56 | With the flag assigned, the outcomes are the same, and the new product carries the submitted sale flag. |
| Admin.AddShopItemsFixedSale | ecomWeb/project3/admin.py:24-40 | With the correction, a valid admin post stores the submitted sale flag. |
| Admin.InsertByDate | ecomWeb/project3/admin.py:62 | Inserting a key into a listing adds exactly that key: it is a permutation of the listing plus the key. |
| Admin.InsertByDateSorted | ecomWeb/project3/admin.py:62 | Inserting into a listing sorted by date added keeps it sorted. |
| Admin.SortByDate | ecomWeb/project3/admin.py:62 | Sorting by date added permutes the listing. |
| Admin.SortByDateSorted | ecomWeb/project3/admin.py:62 | The sorted listing is in order of date added. |
| Admin.ShopItems | ecomWeb/project3/admin.py:58-65 | Non-admins get the not-found page. For the admin the listing is a permutation of all product keys. |
| Admin.ShopItemsSorted | ecomWeb/project3/admin.py:62 | The admin's listing is ordered by date added. |
| Admin.ShopItemsComplete | ecomWeb/project3/admin.py:62 | The listing holds exactly the existing products. |
| Admin.ShopItemsOnce | ecomWeb/project3/admin.py:62 | No product is listed twice. |
| Admin.UpdatedItem | ecomWeb/project3/admin.py:94-99 | An update replaces name, both prices, stock, sale flag and picture path, and keeps description and date added. |
| Admin.UpdateItem | ecomWeb/project3/admin.py:67-109 | A GET pre-fills the form from the product and crashes on a missing one. A valid admin post with a successful commit replaces exactly that product's fields and touches nothing else. A failed commit reports "item not updated", and an invalid submission shows the form again. Everything else changes nothing. A valid post for a missing id reports success and changes nothing, as the real update query matches no row. |
| Admin.UpdateItemKeepsValid | ecomWeb/project3/admin.py:94-100 | Updating a product preserves the store invariant. |
| Admin.UpdateItemRoundTrip | ecomWeb/project3/admin.py:73-100 | For a product with non-zero prices and stock and a non-blank name (what the form demands of the pre-filled values), submitting the pre-filled form unchanged, with a new picture, restores the product except for its picture path. |
| Admin.DeleteItem | ecomWeb/project3/admin.py:112-127 | Non-admins get the not-found page. The product is removed, with every other row unchanged, exactly when it exists, nothing refers to it and the commit succeeds. Otherwise "item not deleted" is reported and nothing changes. |
| Admin.DeleteItemKeepsValid | ecomWeb/project3/admin.py:116-121 | Deleting a product preserves the store invariant: no link is left dangling. |
| Admin.DeleteItemRefusedInCart | ecomWeb/project3/admin.py:116-125 | A product still in some cart is not deleted, and "item not deleted" is reported. |
| Admin.ViewOrders | ecomWeb/project3/admin.py:130-135 | Non-admins get the not-found page. The admin sees exactly the existing orders. |
| Admin.Customers | ecomWeb/project3/admin.py:169-175 | Anyone but customer 1 gets the not-found page. The administrator gets only existing customers, and on a consistent table every customer, password hashes included. |
| Admin.UpdateOrder | ecomWeb/project3/admin.py:138-166 | A GET shows the order's status and crashes on a missing order. A submission off the choice list shows the form again. A valid post on an existing order with a successful commit changes that order's status and nothing else. A valid post on a missing order crashes, and a failed commit reports "Order status not updated"; neither changes anything. |
| Admin.UpdateOrderKeepsValid | ecomWeb/project3/admin.py:148-153 | Changing a status preserves the store invariant. |
| Admin.UpdateOrderStatusChosen | ecomWeb/project3/admin.py:148-150 | An updated status is always one of the form's choices, never "Paid". |
| Admin.AdminOnly | ecomWeb/project3/admin.py:15-175 | For anyone but customer 1, no catalogue or order handler changes the store, and the product, order and customer listings are all refused. |
| Authen.FindByEmail | ecomWeb/project3/authen.py:16 | The lookup finds a customer with that address, and finds none exactly when no customer has it. |
| Authen.FindByEmailUnique | ecomWeb/project3/authen.py:32 | With unique addresses, looking up a customer's address finds that customer. |
| Authen.Login | ecomWeb/project3/authen.py:10-21 | A log-in succeeds only on a valid post, for a customer with that address, whose stored hash checks against the password. |
| Authen.LoginExactly | ecomWeb/project3/authen.py:16-18 | On a consistent store a valid log-in succeeds as customer `k` exactly when `k` has that address and the password checks. |
| Authen.Signup | ecomWeb/project3/authen.py:23-49 | An invalid or non-posted form changes nothing. A taken address is refused with its message, which happens exactly when the address is in use. A valid post with an unused address and matching passwords adds exactly one customer under the next key, storing the hash of the password. |
| Authen.SignupSucceeds | ecomWeb/project3/authen.py:32-42 | A valid sign-up with an unused address always creates the account, so the customer table grows by exactly one row holding the username, the address and the hash of the password. |
| Authen.SignupNeverMismatch | ecomWeb/project3/authen.py:37-47 | The "Passwords do not match!" branch is never taken: the form already requires the confirmation to match. |
| Authen.SignupKeepsValid | ecomWeb/project3/authen.py:32-42 | Sign-up preserves the store invariant, in particular unique addresses. |
| Authen.SignupThenLogin | ecomWeb/project3/authen.py:38-42 | After a successful sign-up, logging in with the same address and password finds the new customer. |
| Authen.SignupAdmin | ecomWeb/project3/admin.py:17 | The `id == 1` gate makes the first customer ever created the administrator: a sign-up gets the administrator's id exactly when no customer key was handed out before. |
| Authen.ChangePassword | ecomWeb/project3/authen.py:65-91 | As written nothing is ever saved. A missing account is not found, and another customer's account is refused. An authorised submission whose new passwords match crashes, and only an authorised submission crashes. |
| Authen.ChangePasswordNeverChanges | ecomWeb/project3/authen.py:81-84 | After an authorised change, logging in still requires the old password. |
| Authen.ChangePasswordNeverMismatch | ecomWeb/project3/authen.py:82-88 | The "New passwords do not match!" branch is never taken: the form already requires the confirmation to match. |
| Authen.ChangePasswordFixed | ecomWeb/project3/authen.py:65-91 | With the hash assigned, exactly the authorised submissions store the new password's hash on that account, and nothing else changes. |
| Authen.ChangePasswordFixedTakesEffect | ecomWeb/project3/authen.py:81-86 | With the correction, logging in afterwards requires the new password, and the store stays consistent. |

## Left out

- The payment provider's session creation and retrieval are external network calls. Session creation is modelled as returning the line items (`providerOk` says whether the provider answered). The retrieved payment id is an input.
- Flask routing, templates, `flash`, redirects, `jsonify` and the login manager are not modelled. Outcomes stand in for pages, and flash messages appear only as the `Rejected` text of caught failures.
- Session commit and rollback are not modelled beyond `commitOk`: each handler is one atomic transition.
- bcrypt salting is left out: hashing is a deterministic function parameter.
- Email syntax is a predicate parameter.
- Saving the uploaded file and `secure_filename` are left out; the sanitiser is a function parameter.
- `send_from_directory` (`get_image`) is I/O and is left out.
- Float prices are `real`, so binary rounding, and the exact result of `int(price * 100)` on a float, are not modelled.
- `home` and `admin_home` only render pages. `logout` only ends the login session, which is not modelled. `profile` reads any customer by id, with no check of who asks, and only renders it; it changes nothing. `init.py` is application set-up. None of these is part of this model.
- `add_shop_items` and `view_orders` lack `login_required`. An anonymous visitor there makes the real handler fail on `current_user.id`; here every caller is some customer id, so that case is left out.
- Concurrent requests by one customer are left out, because every handler is one atomic transition.
- Row keys are assumed to come from a counter that never reuses a key. The program does not guarantee this: without AUTOINCREMENT a database may hand out the top key again after a delete.
- Query results without ORDER BY are assumed to come in ascending key order. The database does not promise any order there. The tie order among products with the same date added is left to the sort.
- Non-ASCII whitespace is left out. The required-data check treats as blank only the ASCII characters `str.strip()` removes: space, tab, newline, vertical tab, form feed, carriage return and the separators 0x1C to 0x1F. Python also strips characters such as the no-break space.
- Forms.FormValid: the CSRF token check that `validate_on_submit` makes on every form is assumed to pass, so validity depends only on the field validators. The same holds for Forms.ShopItemsValid and Forms.OrdersFormValid.
- Authen.Login: the login session and the "remember me" flag are not modelled; the contract states only which customer is found.
- Views.PaymentSuccess: the value a failed provider call would raise is not modelled; any non-empty `id` argument fails.

## Findings

| source | as written | input that shows it | evidently intended | confidence | as-written member | corrected member |
|---|---|---|---|---|---|---|
| ecomWeb/project3/views.py:193-195 | The callback reads the query argument `id`, while the success address carries `session_id`, and it passes the built-in `id` to the session lookup. | Any completed payment: arguments `{session_id: token}`. Nothing is recorded and the cart stays full. | Read `session_id`, look that session up, and record the cart as orders. | not executed | Views.PaymentSuccess, Views.PaymentSuccessNeverRecords | Views.PaymentSuccessFixed, Views.PaymentSuccessFixedRecords |
| ecomWeb/project3/views.py:79 | The plus and minus answers sum the lines whose product key equals the customer's id. | Customer 1 has one mug line (price 5); customer 2 has 3 of product 1 (price 10). Plus on customer 1's line reports an amount of 30 instead of 10. | Sum the lines whose customer is the current customer. | not executed | Views.PlusCart, Views.PlusCartWrongAmount | Views.PlusCartFixed, Views.PlusCartFixedReportsCart |
| ecomWeb/project3/views.py:121-134 | `quantity` is bound only when the line exists and is the customer's, but it is read in every case. | Removing the same line twice: the second request fails. | Answer with quantity 0 and the current cart when nothing was removed. | not executed | Views.RemoveItem, Views.RemoveItemTwiceFails | Views.RemoveItemFixed, Views.RemoveItemFixedTwice |
| ecomWeb/project3/authen.py:83 | The handler calls `set_password`, which the customer model does not define. | An owner submits the right current password and matching new passwords. The request fails and the old password stays in force. | Store the hash of the new password. | not executed | Authen.ChangePassword, Authen.ChangePasswordNeverChanges | Authen.ChangePasswordFixed, Authen.ChangePasswordFixedTakesEffect |
| ecomWeb/project3/admin.py:24 | `flash_sale` is read from the form but never assigned to the new product. | An admin adds a product with the sale box ticked; the product is not on sale. | Store the submitted flag, as `update_item` does. | not executed | Admin.AddShopItems, Admin.AddShopItemsIgnoresSale | Admin.AddShopItemsFixed, Admin.AddShopItemsFixedSale |

=== FILE: admin.dfy ===
/** The administrator's request handlers: the product catalogue (add, list,
    update, delete) and the order list with its status form.

    Every handler first checks that the signed-in customer is the one
    administrator (id 1) and shows the not-found page to anyone else. Saving
    the uploaded picture to disk is left out; the stored picture path is
    built from the sanitised file name, and the sanitiser is a parameter. */
module Admin {
  import opened Tables
  import opened Models
  import opened Forms

  /** Where uploaded product pictures are served from. */
  const MEDIA_PREFIX: string := "/static/media/"

  const ITEM_NOT_ADDED: string := "item not added"
  const ITEM_NOT_UPDATED: string := "item not updated"
  const ITEM_NOT_DELETED: string := "item not deleted"
  const STATUS_NOT_UPDATED: string := "Order status not updated"

  /** The stored path of an uploaded picture. */
  function PicturePath(fileName: string, sanitize: string -> string): (p: string)
    ensures |p| >= |MEDIA_PREFIX| && p[..|MEDIA_PREFIX|] == MEDIA_PREFIX && p[|MEDIA_PREFIX|..] == sanitize(fileName)
  {
    MEDIA_PREFIX + sanitize(fileName)
  }

  // ---------------------------------------------------------------------
  // Adding a product

  /** The product `add_shop_items` builds from a valid form: the name, both
      prices, the stock and the picture path are copied; the description is
      left empty, the sale flag keeps its default, and the row is stamped
      with `now`. */
  function NewShopItem(form: ShopItemsForm, sanitize: string -> string, now: int): (p: Product)
    requires ShopItemsValid(form)
    ensures p.name == form.name && p.currentPrice == form.currentPrice.value
    ensures p.previousPrice == form.previousPrice.value && p.inStock == form.inStock.value
    ensures p.picture == Some(PicturePath(form.picture.value, sanitize))
    ensures p.description == None && p.flashSale == FLASH_SALE_DEFAULT && p.dateAdded == now
  {
    var p := NewProduct(form.name, form.currentPrice.value, form.previousPrice.value, now);
    p.(inStock := form.inStock.value, picture := Some(PicturePath(form.picture.value, sanitize)))
  }

  /** `add_shop_items`. The result is the key of the new product, or `None`
      when the form was only displayed (a GET, or a submission that did not
      validate). A failed commit is reported as "item not added". */
  function AddShopItems(s: Store, actor: int, verb: Method, form: ShopItemsForm,
                        sanitize: string -> string, now: int, commitOk: bool): (r: Step<Option<int>>)
    ensures !IsAdmin(actor) ==> r == Step(s, Fail(NotFound))
    ensures r.out.Ok? && r.out.value.Some? <==>
      IsAdmin(actor) && verb.Post? && ShopItemsValid(form) && commitOk
    ensures r.out.Ok? && r.out.value.Some? ==>
      && ShopItemsValid(form)
      && r.out.value.value == s.products.next
      && r.store == s.(products := s.products.Insert(NewShopItem(form, sanitize, now)))
    ensures !(r.out.Ok? && r.out.value.Some?) ==> r.store == s
    ensures IsAdmin(actor) && verb.Post? && ShopItemsValid(form) && !commitOk ==>
      r.out == Fail(Rejected(ITEM_NOT_ADDED))
    ensures IsAdmin(actor) && !(verb.Post? && ShopItemsValid(form)) ==> r == Step(s, Ok(None))
  {
    if !IsAdmin(actor) then Step(s, Fail(NotFound))
    else if !verb.Post? || !ShopItemsValid(form) then Step(s, Ok(None))
    else if !commitOk then Step(s, Fail(Rejected(ITEM_NOT_ADDED)))
    else Step(s.(products := s.products.Insert(NewShopItem(form, sanitize, now))), Ok(Some(s.products.next)))
  }

  /** Adding a product keeps the store consistent, and the new product is
      the only row that appears. */
  lemma AddShopItemsKeepsValid(s: Store, actor: int, verb: Method, form: ShopItemsForm,
                               sanitize: string -> string, now: int, commitOk: bool)
    requires Valid(s)
    ensures var r := AddShopItems(s, actor, verb, form, sanitize, now, commitOk);
      && Valid(r.store)
      && r.store.products.rows.Keys == s.products.rows.Keys + (if r.out.Ok? && r.out.value.Some? then {s.products.next} else {})
  {
  }

  /** The sale checkbox never reaches the stored product: ticking it or not
      adds the very same row. */
  lemma AddShopItemsIgnoresSale(s: Store, actor: int, verb: Method, form: ShopItemsForm,
                                sanitize: string -> string, now: int, commitOk: bool)
    ensures AddShopItems(s, actor, verb, form, sanitize, now, commitOk)
         == AddShopItems(s, actor, verb, form.(flashSale := !form.flashSale), sanitize, now, commitOk)
    ensures var r := AddShopItems(s, actor, verb, form, sanitize, now, commitOk);
      r.out.Ok? && r.out.value.Some? ==> !r.store.products.rows[r.out.value.value].flashSale
  {
    assert ShopItemsValid(form) == ShopItemsValid(form.(flashSale := !form.flashSale));
  }

  /** `add_shop_items` as intended: the same, except that the new product
      is on flash sale exactly when the box was ticked. */
  function AddShopItemsFixed(s: Store, actor: int, verb: Method, form: ShopItemsForm,
                             sanitize: string -> string, now: int, commitOk: bool): (r: Step<Option<int>>)
    ensures r.out == AddShopItems(s, actor, verb, form, sanitize, now, commitOk).out
    ensures r.out.Ok? && r.out.value.Some? ==>
      && ShopItemsValid(form)
      && r.store == s.(products := s.products.Insert(NewShopItem(form, sanitize, now).(flashSale := form.flashSale)))
    ensures !(r.out.Ok? && r.out.value.Some?) ==> r.store == s
  {
    var r := AddShopItems(s, actor, verb, form, sanitize, now, commitOk);
    if r.out.Ok? && r.out.value.Some? then
      Step(s.(products := s.products.Insert(NewShopItem(form, sanitize, now).(flashSale := form.flashSale))), r.out)
    else r
  }

  /** With the corrected handler, a product added with the box ticked shows
      up among the flash-sale products, and one added without it does not. */
  lemma AddShopItemsFixedSale(s: Store, form: ShopItemsForm, sanitize: string -> string, now: int)
    requires ShopItemsValid(form)
    ensures var r := AddShopItemsFixed(s, ADMIN_ID, Post, form, sanitize, now, true);
      && r.out == Ok(Some(s.products.next))
      && r.store.products.rows[s.products.next].flashSale == form.flashSale
  {
  }

  // ---------------------------------------------------------------------
  // Listing the catalogue by date added

  /** Every listed key is a product. */
  predicate Listed(m: map<int, Product>, ks: seq<int>) {
    forall i :: 0 <= i < |ks| ==> ks[i] in m
  }

  /** The listed products appear oldest first. */
  predicate DateSorted(m: map<int, Product>, ks: seq<int>)
    requires Listed(m, ks)
  {
    forall i, j :: 0 <= i < j < |ks| ==> m[ks[i]].dateAdded <= m[ks[j]].dateAdded
  }

  /** Inserts `k` into `ks` before the first product added strictly later. */
  function InsertByDate(m: map<int, Product>, k: int, ks: seq<int>): (r: seq<int>)
    requires k in m && Listed(m, ks)
    decreases |ks|
    ensures Listed(m, r)
    ensures multiset(r) == multiset(ks) + multiset{k}
  {
    if ks == [] then [k]
    else if m[k].dateAdded < m[ks[0]].dateAdded then [k] + ks
    else
      assert ks == [ks[0]] + ks[1..];
      [ks[0]] + InsertByDate(m, k, ks[1..])
  }

  /** Inserting into a date-sorted list keeps it date-sorted. */
  lemma {:induction false} InsertByDateSorted(m: map<int, Product>, k: int, ks: seq<int>)
    requires k in m && Listed(m, ks) && DateSorted(m, ks)
    ensures DateSorted(m, InsertByDate(m, k, ks))
    decreases |ks|
  {
    if ks != [] && m[k].dateAdded >= m[ks[0]].dateAdded {
      var rest := InsertByDate(m, k, ks[1..]);
      InsertByDateSorted(m, k, ks[1..]);
      var r := [ks[0]] + rest;
      assert InsertByDate(m, k, ks) == r;
      forall j | 0 <= j < |rest|
        ensures m[ks[0]].dateAdded <= m[rest[j]].dateAdded
      {
        assert rest[j] in multiset(rest);
        assert rest[j] in multiset(ks[1..]) + multiset{k};
        if rest[j] != k {
          assert rest[j] in ks[1..];
          var t :| 0 <= t < |ks[1..]| && ks[1..][t] == rest[j];
          assert ks[1 + t] == rest[j];
        }
      }
      forall i, j | 0 <= i < j < |r|
        ensures m[r[i]].dateAdded <= m[r[j]].dateAdded
      {
        assert r[j] == rest[j - 1];
        if i > 0 {
          assert r[i] == rest[i - 1];
        }
      }
    }
  }

  /** Insertion sort of `ks` by date added; products added at the same time
      stay in the order of `ks`. */
  function SortByDate(m: map<int, Product>, ks: seq<int>): (r: seq<int>)
    requires Listed(m, ks)
    decreases |ks|
    ensures Listed(m, r)
    ensures multiset(r) == multiset(ks)
  {
    if ks == [] then []
    else
      var n := |ks| - 1;
      assert ks == ks[..n] + [ks[n]];
      InsertByDate(m, ks[n], SortByDate(m, ks[..n]))
  }

  /** The sort's result is date-sorted. */
  lemma {:induction false} SortByDateSorted(m: map<int, Product>, ks: seq<int>)
    requires Listed(m, ks)
    ensures DateSorted(m, SortByDate(m, ks))
    decreases |ks|
  {
    if ks != [] {
      var n := |ks| - 1;
      SortByDateSorted(m, ks[..n]);
      InsertByDateSorted(m, ks[n], SortByDate(m, ks[..n]));
    }
  }

  /** Keeps every row. */
  function Everything<T>(): T -> bool {
    (x: T) => true
  }

  /** `shop_items`: the keys of all products, oldest first. */
  function ShopItems(s: Store, actor: int): (r: Outcome<seq<int>>)
    ensures !IsAdmin(actor) <==> r == Fail(NotFound)
    ensures r.Ok? ==> Listed(s.products.rows, r.value)
    ensures r.Ok? ==> multiset(r.value) == multiset(All(s.products, Everything()))
  {
    if !IsAdmin(actor) then Fail(NotFound)
    else
      var ks := All(s.products, Everything());
      assert Listed(s.products.rows, ks);
      Ok(SortByDate(s.products.rows, ks))
  }

  /** The catalogue list is oldest first. */
  lemma ShopItemsSorted(s: Store)
    ensures var r := ShopItems(s, ADMIN_ID);
      r.Ok? && DateSorted(s.products.rows, r.value)
  {
    var ks := All(s.products, Everything());
    assert Listed(s.products.rows, ks);
    SortByDateSorted(s.products.rows, ks);
  }

  /** On a consistent catalogue the list shows every product and nothing else. */
  lemma ShopItemsComplete(s: Store, k: int)
    requires s.products.Valid()
    ensures var r := ShopItems(s, ADMIN_ID);
      r.Ok? && (k in r.value <==> k in s.products.rows)
  {
    var ks := All(s.products, Everything());
    AllExactly(s.products, Everything(), k);
    var r := ShopItems(s, ADMIN_ID).value;
    assert k in r <==> k in multiset(r);
    assert k in ks <==> k in multiset(ks);
  }

  /** A strictly ascending list holds each value at most once. */
  lemma {:induction false} AscendingOnce(ks: seq<int>, k: int)
    requires forall i, j :: 0 <= i < j < |ks| ==> ks[i] < ks[j]
    ensures multiset(ks)[k] <= 1
  {
    if ks != [] {
      AscendingOnce(ks[1..], k);
      assert ks == [ks[0]] + ks[1..];
      if ks[0] == k {
        assert k !in ks[1..] by {
          forall j | 0 <= j < |ks[1..]|
            ensures ks[1..][j] != k
          {
            assert ks[1..][j] == ks[j + 1];
          }
        }
      }
    }
  }

  /** The catalogue list shows no product twice. */
  lemma ShopItemsOnce(s: Store, k: int)
    ensures var r := ShopItems(s, ADMIN_ID);
      r.Ok? && multiset(r.value)[k] <= 1
  {
    SelectIncreasing(s.products.rows, Everything(), 1, s.products.next);
    AscendingOnce(All(s.products, Everything()), k);
  }

  // ---------------------------------------------------------------------
  // Updating a product

  /** What `update_item` shows: the form filled from the stored product (on a
      GET), the submitted form again, or the confirmation of an update. */
  datatype ItemPage = Prefilled(form: ShopItemsForm) | FormShown | ItemUpdated

  /** The product after an update from a valid form: name, both prices,
      stock, sale flag and picture are replaced; the description and the
      date added are kept. */
  function UpdatedItem(p: Product, form: ShopItemsForm, sanitize: string -> string): (q: Product)
    requires ShopItemsValid(form)
    ensures q.name == form.name && q.currentPrice == form.currentPrice.value
    ensures q.previousPrice == form.previousPrice.value && q.inStock == form.inStock.value
    ensures q.flashSale == form.flashSale && q.picture == Some(PicturePath(form.picture.value, sanitize))
    ensures q.description == p.description && q.dateAdded == p.dateAdded
  {
    p.(name := form.name, currentPrice := form.currentPrice.value, previousPrice := form.previousPrice.value,
       inStock := form.inStock.value, flashSale := form.flashSale,
       picture := Some(PicturePath(form.picture.value, sanitize)))
  }

  /** `update_item`. A GET reads the product to fill the form, and fails
      when it does not exist. A valid submission updates the rows whose key
      is `id` — none when it does not exist, which still reports success. */
  function UpdateItem(s: Store, actor: int, id: int, verb: Method, form: ShopItemsForm,
                      sanitize: string -> string, commitOk: bool): (r: Step<ItemPage>)
    ensures !IsAdmin(actor) ==> r == Step(s, Fail(NotFound))
    ensures IsAdmin(actor) && verb.Get? ==>
      && r.store == s
      && (id in s.products.rows <==> r.out.Ok?)
      && (r.out.Fail? ==> r.out.error == Crash)
      && (r.out.Ok? ==> (
            && r.out.value.Prefilled?
            && r.out.value.form.name == s.products.rows[id].name
            && r.out.value.form.currentPrice == Some(s.products.rows[id].currentPrice)
            && r.out.value.form.previousPrice == Some(s.products.rows[id].previousPrice)
            && r.out.value.form.inStock == Some(s.products.rows[id].inStock)
            && r.out.value.form.flashSale == s.products.rows[id].flashSale))
    ensures r.out == Ok(ItemUpdated) <==> IsAdmin(actor) && verb.Post? && ShopItemsValid(form) && commitOk
    ensures r.out == Ok(ItemUpdated) ==>
      && r.store.customers == s.customers && r.store.carts == s.carts && r.store.orders == s.orders
      && r.store.products.rows.Keys == s.products.rows.Keys
      && r.store.products.next == s.products.next
      && (forall k :: k in s.products.rows && k != id ==> r.store.products.rows[k] == s.products.rows[k])
      && (id in s.products.rows ==> r.store.products.rows[id] == UpdatedItem(s.products.rows[id], form, sanitize))
    ensures r.out != Ok(ItemUpdated) ==> r.store == s
    ensures IsAdmin(actor) && verb.Post? && ShopItemsValid(form) && !commitOk ==>
      r.out == Fail(Rejected(ITEM_NOT_UPDATED))
    ensures IsAdmin(actor) && verb.Post? && !ShopItemsValid(form) ==> r == Step(s, Ok(FormShown))
  {
    if !IsAdmin(actor) then Step(s, Fail(NotFound))
    else if verb.Get? then
      if id !in s.products.rows then Step(s, Fail(Crash))
      else
        var p := s.products.rows[id];
        Step(s, Ok(Prefilled(form.(name := p.name, currentPrice := Some(p.currentPrice),
                                   previousPrice := Some(p.previousPrice), inStock := Some(p.inStock),
                                   flashSale := p.flashSale))))
    else if !ShopItemsValid(form) then Step(s, Ok(FormShown))
    else if !commitOk then Step(s, Fail(Rejected(ITEM_NOT_UPDATED)))
    else if id !in s.products.rows then Step(s, Ok(ItemUpdated))
    else Step(s.(products := s.products.Put(id, UpdatedItem(s.products.rows[id], form, sanitize))), Ok(ItemUpdated))
  }

  /** Updating a product keeps the store consistent. */
  lemma UpdateItemKeepsValid(s: Store, actor: int, id: int, verb: Method, form: ShopItemsForm,
                             sanitize: string -> string, commitOk: bool)
    requires Valid(s)
    ensures Valid(UpdateItem(s, actor, id, verb, form, sanitize, commitOk).store)
  {
  }

  /** A GET of the form followed by a submission of that very form, with the
      same file attached, puts the product's own values back: only the
      picture path can change. */
  lemma UpdateItemRoundTrip(s: Store, id: int, picture: string, sanitize: string -> string)
    requires id in s.products.rows
    requires s.products.rows[id].currentPrice != 0.0 && s.products.rows[id].previousPrice != 0.0
    requires s.products.rows[id].inStock != 0 && HasContent(s.products.rows[id].name) && |picture| > 0
    ensures var shown := UpdateItem(s, ADMIN_ID, id, Get, ShopItemsForm("", None, None, None, Some(picture), false), sanitize, true);
      && shown.out.Ok? && shown.out.value.Prefilled?
      && var r := UpdateItem(s, ADMIN_ID, id, Post, shown.out.value.form, sanitize, true);
         && r.out == Ok(ItemUpdated)
         && r.store.products.rows[id] == s.products.rows[id].(picture := Some(PicturePath(picture, sanitize)))
  {
    var shown := UpdateItem(s, ADMIN_ID, id, Get, ShopItemsForm("", None, None, None, Some(picture), false), sanitize, true);
    var f := shown.out.value.form;
    assert f.picture == Some(picture);
    assert ShopItemsValid(f);
  }

  // ---------------------------------------------------------------------
  // Deleting a product

  /** Some cart line or order still refers to product `id`. */
  predicate Referenced(s: Store, id: int) {
    || (exists k :: k in s.carts.rows && s.carts.rows[k].product == id)
    || (exists k :: k in s.orders.rows && s.orders.rows[k].product == id)
  }

  /** `delete_item`. Deleting a missing product fails inside the `try`, and
      so does deleting a product some cart line or order still refers to:
      the mapper clears those rows' product link, which may not be NULL.
      Either way, and on a failed commit, "item not deleted" is reported. */
  function DeleteItem(s: Store, actor: int, id: int, commitOk: bool): (r: Step<()>)
    ensures !IsAdmin(actor) ==> r == Step(s, Fail(NotFound))
    ensures r.out.Ok? <==> IsAdmin(actor) && id in s.products.rows && !Referenced(s, id) && commitOk
    ensures IsAdmin(actor) && !r.out.Ok? ==> r.out == Fail(Rejected(ITEM_NOT_DELETED))
    ensures r.out.Ok? ==>
      && r.store.customers == s.customers && r.store.carts == s.carts && r.store.orders == s.orders
      && r.store.products.rows.Keys == s.products.rows.Keys - {id}
      && r.store.products.next == s.products.next
      && (forall k :: k in r.store.products.rows ==> r.store.products.rows[k] == s.products.rows[k])
    ensures !r.out.Ok? ==> r.store == s
  {
    if !IsAdmin(actor) then Step(s, Fail(NotFound))
    else if id !in s.products.rows || Referenced(s, id) || !commitOk then Step(s, Fail(Rejected(ITEM_NOT_DELETED)))
    else Step(s.(products := s.products.Delete(id)), Ok(()))
  }

  /** Deleting a product keeps the store consistent; in particular no cart
      line or order is ever left pointing at a deleted product. */
  lemma DeleteItemKeepsValid(s: Store, actor: int, id: int, commitOk: bool)
    requires Valid(s)
    ensures Valid(DeleteItem(s, actor, id, commitOk).store)
  {
    var r := DeleteItem(s, actor, id, commitOk);
    if r.out.Ok? {
      forall k | k in s.carts.rows
        ensures s.carts.rows[k].product in r.store.products.rows
      {
        assert s.carts.rows[k].product != id;
      }
      forall k | k in s.orders.rows
        ensures s.orders.rows[k].product in r.store.products.rows
      {
        assert s.orders.rows[k].product != id;
      }
    }
  }

  /** A product that is in some customer's cart cannot be deleted. */
  lemma DeleteItemRefusedInCart(s: Store, id: int, k: int, commitOk: bool)
    requires k in s.carts.rows && s.carts.rows[k].product == id
    ensures DeleteItem(s, ADMIN_ID, id, commitOk) == Step(s, Fail(Rejected(ITEM_NOT_DELETED)))
  {
    assert Referenced(s, id);
  }

  // ---------------------------------------------------------------------
  // Orders

  /** `view_orders`: the keys of all orders, in query order. */
  function ViewOrders(s: Store, actor: int): (r: Outcome<seq<int>>)
    ensures !IsAdmin(actor) <==> r == Fail(NotFound)
    ensures r.Ok? ==> forall i :: 0 <= i < |r.value| ==> r.value[i] in s.orders.rows
    ensures r.Ok? && s.orders.Valid() ==> forall k :: k in s.orders.rows ==> k in r.value
  {
    if !IsAdmin(actor) then Fail(NotFound)
    else
      AllComplete(s.orders, Everything()); Ok(All(s.orders, Everything()))
  }

  // ---------------------------------------------------------------------
  // Customers

  /** `customers`: the keys of all customers, in query order. The page shows
      every stored row, e-mail address and password hash included, so only
      the administrator may see it. */
  function Customers(s: Store, actor: int): (r: Outcome<seq<int>>)
    ensures !IsAdmin(actor) <==> r == Fail(NotFound)
    ensures r.Ok? ==> forall i :: 0 <= i < |r.value| ==> r.value[i] in s.customers.rows
    ensures r.Ok? && s.customers.Valid() ==> forall k :: k in s.customers.rows ==> k in r.value
  {
    if !IsAdmin(actor) then Fail(NotFound)
    else
      AllComplete(s.customers, Everything()); Ok(All(s.customers, Everything()))
  }

  /** What `update_order` shows: the form filled with the stored status (on
      a GET), the submitted form again, or the confirmation of an update. */
  datatype OrderPage = StatusShown(status: string) | OrderFormShown | StatusUpdated

  /** `update_order`. A GET reads the order to fill the form, and fails
      when it does not exist. A submission with a status off the choice
      list shows the form again. A valid submission sets the order's status,
      and fails when the order does not exist. A failed commit is reported
      as "Order status not updated". */
  function UpdateOrder(s: Store, actor: int, id: int, verb: Method, status: string, commitOk: bool): (r: Step<OrderPage>)
    ensures !IsAdmin(actor) ==> r == Step(s, Fail(NotFound))
    ensures IsAdmin(actor) && verb.Get? ==>
      && r.store == s
      && (id in s.orders.rows <==> r.out.Ok?)
      && (r.out.Fail? ==> r.out.error == Crash)
      && (r.out.Ok? ==> r.out.value == StatusShown(s.orders.rows[id].status))
    ensures IsAdmin(actor) && verb.Post? && !OrdersFormValid(status) ==> r == Step(s, Ok(OrderFormShown))
    ensures IsAdmin(actor) && verb.Post? && OrdersFormValid(status) && id !in s.orders.rows ==>
      r == Step(s, Fail(Crash))
    ensures IsAdmin(actor) && verb.Post? && OrdersFormValid(status) && id in s.orders.rows && !commitOk ==>
      r == Step(s, Fail(Rejected(STATUS_NOT_UPDATED)))
    ensures r.out == Ok(StatusUpdated) <==>
      IsAdmin(actor) && verb.Post? && OrdersFormValid(status) && id in s.orders.rows && commitOk
    ensures r.out == Ok(StatusUpdated) ==>
      && r.store.customers == s.customers && r.store.products == s.products && r.store.carts == s.carts
      && r.store.orders.rows.Keys == s.orders.rows.Keys
      && r.store.orders.next == s.orders.next
      && r.store.orders.rows[id] == s.orders.rows[id].(status := status)
      && (forall k :: k in s.orders.rows && k != id ==> r.store.orders.rows[k] == s.orders.rows[k])
    ensures r.out != Ok(StatusUpdated) ==> r.store == s
  {
    if !IsAdmin(actor) then Step(s, Fail(NotFound))
    else if verb.Get? then
      if id !in s.orders.rows then Step(s, Fail(Crash))
      else Step(s, Ok(StatusShown(s.orders.rows[id].status)))
    else if !OrdersFormValid(status) then Step(s, Ok(OrderFormShown))
    else if id !in s.orders.rows then Step(s, Fail(Crash))
    else if !commitOk then Step(s, Fail(Rejected(STATUS_NOT_UPDATED)))
    else Step(s.(orders := s.orders.Put(id, s.orders.rows[id].(status := status))), Ok(StatusUpdated))
  }

  /** Updating an order's status keeps the store consistent. */
  lemma UpdateOrderKeepsValid(s: Store, actor: int, id: int, verb: Method, status: string, commitOk: bool)
    requires Valid(s)
    ensures Valid(UpdateOrder(s, actor, id, verb, status, commitOk).store)
  {
  }

  /** A status the administrator sets is always one of the form's choices;
      so an order, once changed, can never be marked "Paid" again. */
  lemma UpdateOrderStatusChosen(s: Store, id: int, status: string, commitOk: bool)
    requires UpdateOrder(s, ADMIN_ID, id, Post, status, commitOk).out == Ok(StatusUpdated)
    ensures var r := UpdateOrder(s, ADMIN_ID, id, Post, status, commitOk);
      && ParseStatus(r.store.orders.rows[id].status).Some?
      && r.store.orders.rows[id].status != "Paid"
  {
  }

  /** No administrator handler changes anything for a customer other than
      the administrator. */
  lemma AdminOnly(s: Store, actor: int, verb: Method, form: ShopItemsForm, sanitize: string -> string,
                  now: int, id: int, status: string, commitOk: bool)
    requires !IsAdmin(actor)
    ensures AddShopItems(s, actor, verb, form, sanitize, now, commitOk).store == s
    ensures UpdateItem(s, actor, id, verb, form, sanitize, commitOk).store == s
    ensures DeleteItem(s, actor, id, commitOk).store == s
    ensures UpdateOrder(s, actor, id, verb, status, commitOk).store == s
    ensures ShopItems(s, actor).Fail? && ViewOrders(s, actor).Fail? && Customers(s, actor).Fail?
  {
  }
}

=== FILE: authen.dfy ===
/** Accounts: signing up, logging in, and changing a password.

    Signing in only sets the session's user, so `Login` returns the key of
    the customer it would sign in and leaves the store alone. Hashing is
    the parameter `hash`, and address syntax the parameter `validEmail`. */
module Authen {
  import opened Tables
  import opened Models
  import opened Forms

  const EMAIL_EXISTS: string := "Email already exists. Please use a different email."
  const PASSWORDS_DIFFER: string := "Passwords do not match!"
  const NOT_YOUR_ACCOUNT: string := "You do not have permission to change this password."
  const WRONG_PASSWORD: string := "Current password is incorrect!"
  const NEW_PASSWORDS_DIFFER: string := "New passwords do not match!"

  /** Some customer has the address `e`. */
  predicate EmailInUse(s: Store, e: string) {
    exists k :: k in s.customers.rows && s.customers.rows[k].email == e
  }

  /** `Customer.query.filter_by(email=e).first()`: the lowest key of a
      customer with that address. */
  function FindByEmail(s: Store, e: string): (r: Option<int>)
    ensures r.Some? ==> r.value in s.customers.rows && s.customers.rows[r.value].email == e
    ensures s.customers.Valid() ==> (r.None? <==> !EmailInUse(s, e))
  {
    var ks := All(s.customers, WithEmail(e));
    if ks == [] then NoneMeansUnused(s, e); None
    else Some(ks[0])
  }

  lemma NoneMeansUnused(s: Store, e: string)
    requires All(s.customers, WithEmail(e)) == []
    ensures s.customers.Valid() ==> !EmailInUse(s, e)
  {
    if s.customers.Valid() {
      forall k | k in s.customers.rows
        ensures s.customers.rows[k].email != e
      {
        AllExactly(s.customers, WithEmail(e), k);
      }
    }
  }

  /** With unique addresses, the lookup finds the one customer that has it. */
  lemma FindByEmailUnique(s: Store, k: int)
    requires s.customers.Valid() && EmailsUnique(s) && k in s.customers.rows
    ensures FindByEmail(s, s.customers.rows[k].email) == Some(k)
  {
    var e := s.customers.rows[k].email;
    assert EmailInUse(s, e);
  }

  // ---------------------------------------------------------------------
  // Logging in

  /** `login`: on a valid submission, the customer with the submitted
      address, provided the submitted password checks against its stored
      hash; otherwise nobody (the form is shown again). */
  function Login(s: Store, verb: Method, f: Fields, validEmail: string -> bool, hash: string -> string): (r: Option<int>)
    ensures r.Some? ==>
      && verb.Post? && FormValid(LOGIN, f, validEmail)
      && r.value in s.customers.rows
      && s.customers.rows[r.value].email == Field(f, "email")
      && VerifyPassword(s.customers.rows[r.value], Field(f, "password"), hash)
  {
    if !verb.Post? || !FormValid(LOGIN, f, validEmail) then None
    else
      var c := FindByEmail(s, Field(f, "email"));
      if c.Some? && VerifyPassword(s.customers.rows[c.value], Field(f, "password"), hash) then c
      else None
  }

  /** In a consistent store a valid submission signs in exactly the
      customer with that address whose password it gives. */
  lemma LoginExactly(s: Store, f: Fields, validEmail: string -> bool, hash: string -> string, k: int)
    requires Valid(s) && FormValid(LOGIN, f, validEmail) && k in s.customers.rows
    ensures Login(s, Post, f, validEmail, hash) == Some(k) <==>
      s.customers.rows[k].email == Field(f, "email") && VerifyPassword(s.customers.rows[k], Field(f, "password"), hash)
  {
    if s.customers.rows[k].email == Field(f, "email") {
      FindByEmailUnique(s, k);
    }
  }

  // ---------------------------------------------------------------------
  // Signing up

  /** `Signup`. The result is the key of the new customer, or `None` when
      the form was only displayed. A taken address is refused. The stored
      password is the hash of the submitted one. */
  function Signup(s: Store, verb: Method, f: Fields, validEmail: string -> bool, hash: string -> string, now: int): (r: Step<Option<int>>)
    ensures r.out.Ok? && r.out.value.Some? ==>
      && verb.Post? && FormValid(SIGNUP, f, validEmail)
      && FindByEmail(s, Field(f, "email")).None?
      && r.out.value.value == s.customers.next
      && r.store == s.(customers := s.customers.Insert(
           Customer(Field(f, "username"), Field(f, "email"), hash(Field(f, "password")), now)))
    ensures !(r.out.Ok? && r.out.value.Some?) ==> r.store == s
    ensures verb.Post? && FormValid(SIGNUP, f, validEmail) ==>
      (r.out == Fail(Rejected(EMAIL_EXISTS)) <==> FindByEmail(s, Field(f, "email")).Some?)
    ensures !verb.Post? || !FormValid(SIGNUP, f, validEmail) ==> r.out == Ok(None)
    ensures (verb.Post? && FormValid(SIGNUP, f, validEmail) && FindByEmail(s, Field(f, "email")).None? &&
             Field(f, "password") == Field(f, "confirm_password")) ==>
      r.out == Ok(Some(s.customers.next))
    ensures r.out.Ok? && r.out.value.Some? && s.customers.Valid() ==>
      |r.store.customers.rows| == |s.customers.rows| + 1
  {
    if !verb.Post? || !FormValid(SIGNUP, f, validEmail) then Step(s, Ok(None))
    else
      var email := Field(f, "email");
      var password := Field(f, "password");
      if FindByEmail(s, email).Some? then Step(s, Fail(Rejected(EMAIL_EXISTS)))
      else if password == Field(f, "confirm_password") then
        var c := Customer(Field(f, "username"), email, hash(password), now);
        Step(s.(customers := s.customers.Insert(c)), Ok(Some(s.customers.next)))
      else Step(s, Fail(Rejected(PASSWORDS_DIFFER)))
  }

  /** The handler's own password comparison can never fail: the form's
      equality check has already passed, so "Passwords do not match!" is
      never reported. */
  lemma SignupNeverMismatch(s: Store, verb: Method, f: Fields, validEmail: string -> bool, hash: string -> string, now: int)
    ensures Signup(s, verb, f, validEmail, hash, now).out != Fail(Rejected(PASSWORDS_DIFFER))
  {
    if verb.Post? && FormValid(SIGNUP, f, validEmail) {
      SignupValidMeans(f, validEmail);
    }
  }

  /** Signing up keeps the store consistent: in particular addresses stay
      unique. */
  lemma SignupKeepsValid(s: Store, verb: Method, f: Fields, validEmail: string -> bool, hash: string -> string, now: int)
    requires Valid(s)
    ensures Valid(Signup(s, verb, f, validEmail, hash, now).store)
  {
    var r := Signup(s, verb, f, validEmail, hash, now);
    if r.out.Ok? && r.out.value.Some? {
      var e := Field(f, "email");
      assert !EmailInUse(s, e);
      var n := s.customers.next;
      forall a, b | a in r.store.customers.rows && b in r.store.customers.rows && a != b
        ensures r.store.customers.rows[a].email != r.store.customers.rows[b].email
      {
        if a == n {
          assert r.store.customers.rows[b] == s.customers.rows[b];
        } else if b == n {
          assert r.store.customers.rows[a] == s.customers.rows[a];
        }
      }
    }
  }

  /** Whoever signs up can then log in with the same address and password,
      and that signs in the new account. */
  lemma SignupThenLogin(s: Store, f: Fields, validEmail: string -> bool, hash: string -> string, now: int)
    requires Valid(s)
    requires Signup(s, Post, f, validEmail, hash, now).out.Ok?
    requires Signup(s, Post, f, validEmail, hash, now).out.value.Some?
    ensures var r := Signup(s, Post, f, validEmail, hash, now);
      Login(r.store, Post, f, validEmail, hash) == Some(r.out.value.value)
  {
    var r := Signup(s, Post, f, validEmail, hash, now);
    SignupValidMeans(f, validEmail);
    LoginValidMeans(f, validEmail);
    SignupKeepsValid(s, Post, f, validEmail, hash, now);
    FindByEmailUnique(r.store, r.out.value.value);
  }
  /** A valid sign-up with an unused address always creates the account:
      the form's own equality check guarantees the passwords match. */
  lemma SignupSucceeds(s: Store, f: Fields, validEmail: string -> bool, hash: string -> string, now: int)
    requires s.customers.Valid()
    requires FormValid(SIGNUP, f, validEmail) && !EmailInUse(s, Field(f, "email"))
    ensures var r := Signup(s, Post, f, validEmail, hash, now);
      && r.out == Ok(Some(s.customers.next))
      && |r.store.customers.rows| == |s.customers.rows| + 1
      && r.store.customers.rows[s.customers.next] ==
           Customer(Field(f, "username"), Field(f, "email"), hash(Field(f, "password")), now)
  {
    SignupValidMeans(f, validEmail);
  }

  /** The administrator is whoever signs up first: a successful sign-up
      gets the administrator's id exactly when no customer had been created
      before. */
  lemma SignupAdmin(s: Store, f: Fields, validEmail: string -> bool, hash: string -> string, now: int)
    requires s.customers.Valid()
    requires Signup(s, Post, f, validEmail, hash, now).out.Ok?
    requires Signup(s, Post, f, validEmail, hash, now).out.value.Some?
    ensures IsAdmin(Signup(s, Post, f, validEmail, hash, now).out.value.value) <==> s.customers.next == 1
  {
  }


  // ---------------------------------------------------------------------
  // Changing a password

  /** What `change_password` shows: the form, or the confirmation. */
  datatype PasswordPage = PasswordFormShown | PasswordChanged

  /** A valid submission by the account's owner that gives the right
      current password. */
  predicate Authorised(s: Store, actor: int, id: int, verb: Method, f: Fields,
                       validEmail: string -> bool, hash: string -> string) {
    && id in s.customers.rows && actor == id && verb.Post? && FormValid(CHANGE_PASSWORD, f, validEmail)
    && VerifyPassword(s.customers.rows[id], Field(f, "current_password"), hash)
  }

  /** `change_password` as written. A missing account is not found, and
      another customer's account is refused. On a valid submission with the
      right current password it calls a `set_password` method the customer
      model does not define, so the request fails and nothing is saved. */
  function ChangePassword(s: Store, actor: int, id: int, verb: Method, f: Fields,
                          validEmail: string -> bool, hash: string -> string): (r: Step<PasswordPage>)
    ensures r.store == s
    ensures id !in s.customers.rows <==> r.out == Fail(NotFound)
    ensures id in s.customers.rows && actor != id ==> r.out == Fail(Rejected(NOT_YOUR_ACCOUNT))
    ensures r.out == Fail(Crash) ==>
      Authorised(s, actor, id, verb, f, validEmail, hash)
    ensures Authorised(s, actor, id, verb, f, validEmail, hash) && Field(f, "new_password") == Field(f, "confirm_new_password") ==> r.out == Fail(Crash)
    ensures r.out.Ok? ==> r.out.value == PasswordFormShown
  {
    if id !in s.customers.rows then Step(s, Fail(NotFound))
    else if actor != id then Step(s, Fail(Rejected(NOT_YOUR_ACCOUNT)))
    else if !verb.Post? || !FormValid(CHANGE_PASSWORD, f, validEmail) then Step(s, Ok(PasswordFormShown))
    else if !VerifyPassword(s.customers.rows[id], Field(f, "current_password"), hash) then
      Step(s, Fail(Rejected(WRONG_PASSWORD)))
    else if Field(f, "new_password") == Field(f, "confirm_new_password") then Step(s, Fail(Crash))
    else Step(s, Fail(Rejected(NEW_PASSWORDS_DIFFER)))
  }

  /** As written, no request ever changes a password: the old password
      still logs in afterwards and the new one does not, unless both hash
      alike. */
  lemma ChangePasswordNeverChanges(s: Store, id: int, f: Fields, validEmail: string -> bool, hash: string -> string,
                                   login: Fields)
    requires Valid(s) && id in s.customers.rows
    requires FormValid(CHANGE_PASSWORD, f, validEmail)
    requires VerifyPassword(s.customers.rows[id], Field(f, "current_password"), hash)
    requires FormValid(LOGIN, login, validEmail) && Field(login, "email") == s.customers.rows[id].email
    ensures var r := ChangePassword(s, id, id, Post, f, validEmail, hash);
      && r.out == Fail(Crash)
      && (Login(r.store, Post, login, validEmail, hash) == Some(id) <==>
            hash(Field(login, "password")) == hash(Field(f, "current_password")))
  {
    ChangePasswordValidMeans(f, validEmail);
    LoginExactly(s, login, validEmail, hash, id);
  }

  /** The handler's own comparison of the two new passwords can never fail:
      the form's equality check has already passed, so "New passwords do not
      match!" is never reported. */
  lemma ChangePasswordNeverMismatch(s: Store, actor: int, id: int, verb: Method, f: Fields,
                                    validEmail: string -> bool, hash: string -> string)
    ensures ChangePassword(s, actor, id, verb, f, validEmail, hash).out != Fail(Rejected(NEW_PASSWORDS_DIFFER))
    ensures ChangePasswordFixed(s, actor, id, verb, f, validEmail, hash).out != Fail(Rejected(NEW_PASSWORDS_DIFFER))
  {
    if verb.Post? && FormValid(CHANGE_PASSWORD, f, validEmail) {
      ChangePasswordValidMeans(f, validEmail);
    }
  }

  /** `change_password` as intended: the same checks, and on success the
      stored password becomes the hash of the new one. */
  function ChangePasswordFixed(s: Store, actor: int, id: int, verb: Method, f: Fields,
                               validEmail: string -> bool, hash: string -> string): (r: Step<PasswordPage>)
    ensures id !in s.customers.rows <==> r.out == Fail(NotFound)
    ensures id in s.customers.rows && actor != id ==> r.out == Fail(Rejected(NOT_YOUR_ACCOUNT))
    ensures r.out == Ok(PasswordChanged) ==>
      Authorised(s, actor, id, verb, f, validEmail, hash)
    ensures Authorised(s, actor, id, verb, f, validEmail, hash) && Field(f, "new_password") == Field(f, "confirm_new_password") ==> r.out == Ok(PasswordChanged)
    ensures r.out == Ok(PasswordChanged) ==>
      r.store == s.(customers := s.customers.Put(id, s.customers.rows[id].(password := hash(Field(f, "new_password")))))
    ensures r.out != Ok(PasswordChanged) ==> r.store == s
    ensures r.out != Fail(Crash)
  {
    if id !in s.customers.rows then Step(s, Fail(NotFound))
    else if actor != id then Step(s, Fail(Rejected(NOT_YOUR_ACCOUNT)))
    else if !verb.Post? || !FormValid(CHANGE_PASSWORD, f, validEmail) then Step(s, Ok(PasswordFormShown))
    else if !VerifyPassword(s.customers.rows[id], Field(f, "current_password"), hash) then
      Step(s, Fail(Rejected(WRONG_PASSWORD)))
    else if Field(f, "new_password") == Field(f, "confirm_new_password") then
      var c := s.customers.rows[id];
      Step(s.(customers := s.customers.Put(id, c.(password := hash(Field(f, "new_password"))))), Ok(PasswordChanged))
    else Step(s, Fail(Rejected(NEW_PASSWORDS_DIFFER)))
  }

  /** With the corrected handler, a successful change keeps the store
      consistent, and afterwards exactly the passwords that hash like the new
      one log in to the account. */
  lemma ChangePasswordFixedTakesEffect(s: Store, id: int, f: Fields, validEmail: string -> bool, hash: string -> string,
                                       login: Fields)
    requires Valid(s) && id in s.customers.rows
    requires FormValid(CHANGE_PASSWORD, f, validEmail)
    requires VerifyPassword(s.customers.rows[id], Field(f, "current_password"), hash)
    requires FormValid(LOGIN, login, validEmail) && Field(login, "email") == s.customers.rows[id].email
    ensures var r := ChangePasswordFixed(s, id, id, Post, f, validEmail, hash);
      && r.out == Ok(PasswordChanged)
      && Valid(r.store)
      && (Login(r.store, Post, login, validEmail, hash) == Some(id) <==>
            hash(Field(login, "password")) == hash(Field(f, "new_password")))
  {
    ChangePasswordValidMeans(f, validEmail);
    var r := ChangePasswordFixed(s, id, id, Post, f, validEmail, hash);
    assert forall k :: k in r.store.customers.rows ==> r.store.customers.rows[k].email == s.customers.rows[k].email;
    assert Valid(r.store);
    LoginExactly(r.store, login, validEmail, hash, id);
  }
}

=== FILE: forms.dfy ===
/** The declarative web forms: each text field carries a list of validators,
    and a form is valid when every validator of every field passes.

    Submitted text fields are a map from field name to text; a field the
    request did not send reads as the empty string. Syntax checking of email
    addresses is a parameter `validEmail`. */
module Forms {
  import opened Tables

  datatype Validator =
    | DataRequired                    // some non-whitespace text
    | Length(min: int, max: int)      // min <= length, and length <= max unless max == -1
    | EqualTo(other: string)          // same text as the named field
    | Email                           // address syntax, decided by `validEmail`

  type Fields = map<string, string>

  /** The request method. A form is only checked on a submitted (POST)
      request; on a GET it is just displayed. */
  datatype Method = Get | Post

  /** The text submitted for field `name`. */
  function Field(f: Fields, name: string): string {
    if name in f then f[name] else ""
  }

  /** The ASCII characters `str.strip()` removes: space, the controls tab
      to carriage return, and the four separators 0x1C to 0x1F. */
  predicate IsSpace(c: char) {
    c == ' ' || c == '\t' || c == '\n' || c == '\r' || c == '\U{B}' || c == '\U{C}'
      || c == '\U{1C}' || c == '\U{1D}' || c == '\U{1E}' || c == '\U{1F}'
  }

  /** Text that is not empty after stripping surrounding whitespace. */
  predicate HasContent(s: string) {
    exists i :: 0 <= i < |s| && !IsSpace(s[i])
  }

  predicate Passes(v: Validator, name: string, f: Fields, validEmail: string -> bool) {
    var data := Field(f, name);
    match v
    case DataRequired => HasContent(data)
    case Length(lo, hi) => lo <= |data| && (hi == -1 || |data| <= hi)
    case EqualTo(other) => other in f && data == f[other]
    case Email => validEmail(data)
  }

  /** A form schema: each field name with its validators. */
  type Schema = seq<(string, seq<Validator>)>

  predicate FormValid(schema: Schema, f: Fields, validEmail: string -> bool) {
    forall i, j :: 0 <= i < |schema| && 0 <= j < |schema[i].1| ==>
      Passes(schema[i].1[j], schema[i].0, f, validEmail)
  }

  const SIGNUP: Schema := [
    ("email", [DataRequired, Email]),
    ("username", [DataRequired, Length(2, 20)]),
    ("password", [DataRequired, Length(6, -1)]),
    ("confirm_password", [DataRequired, EqualTo("password")])
  ]

  const LOGIN: Schema := [
    ("email", [DataRequired, Email]),
    ("password", [DataRequired, Length(6, -1)])
  ]

  const CHANGE_PASSWORD: Schema := [
    ("current_password", [DataRequired]),
    ("new_password", [DataRequired, Length(6, -1)]),
    ("confirm_new_password", [DataRequired, EqualTo("new_password")])
  ]

  /** A valid sign-up form: an address with content that passes the syntax
      check, a username of 2 to 20 characters, a password of at least 6,
      and a confirmation equal to the password. */
  lemma SignupValidMeans(f: Fields, validEmail: string -> bool)
    ensures FormValid(SIGNUP, f, validEmail) <==>
      && HasContent(Field(f, "email")) && validEmail(Field(f, "email"))
      && HasContent(Field(f, "username")) && 2 <= |Field(f, "username")| <= 20
      && HasContent(Field(f, "password")) && |Field(f, "password")| >= 6
      && "password" in f && Field(f, "confirm_password") == Field(f, "password")
  {
    if FormValid(SIGNUP, f, validEmail) {
      assert Passes(SIGNUP[0].1[0], "email", f, validEmail);
      assert Passes(SIGNUP[0].1[1], "email", f, validEmail);
      assert Passes(SIGNUP[1].1[0], "username", f, validEmail);
      assert Passes(SIGNUP[1].1[1], "username", f, validEmail);
      assert Passes(SIGNUP[2].1[0], "password", f, validEmail);
      assert Passes(SIGNUP[2].1[1], "password", f, validEmail);
      assert Passes(SIGNUP[3].1[1], "confirm_password", f, validEmail);
    }
  }

  /** A valid login form: an address with content that passes the syntax
      check, and a password of at least 6 characters. */
  lemma LoginValidMeans(f: Fields, validEmail: string -> bool)
    ensures FormValid(LOGIN, f, validEmail) <==>
      && HasContent(Field(f, "email")) && validEmail(Field(f, "email"))
      && HasContent(Field(f, "password")) && |Field(f, "password")| >= 6
  {
    if FormValid(LOGIN, f, validEmail) {
      assert Passes(LOGIN[0].1[0], "email", f, validEmail);
      assert Passes(LOGIN[0].1[1], "email", f, validEmail);
      assert Passes(LOGIN[1].1[0], "password", f, validEmail);
      assert Passes(LOGIN[1].1[1], "password", f, validEmail);
    }
  }

  /** A valid change-password form: a current password with content, a new
      password of at least 6 characters, and a confirmation equal to it. */
  lemma ChangePasswordValidMeans(f: Fields, validEmail: string -> bool)
    ensures FormValid(CHANGE_PASSWORD, f, validEmail) <==>
      && HasContent(Field(f, "current_password"))
      && HasContent(Field(f, "new_password")) && |Field(f, "new_password")| >= 6
      && "new_password" in f && Field(f, "confirm_new_password") == Field(f, "new_password")
  {
    if FormValid(CHANGE_PASSWORD, f, validEmail) {
      assert Passes(CHANGE_PASSWORD[0].1[0], "current_password", f, validEmail);
      assert Passes(CHANGE_PASSWORD[1].1[0], "new_password", f, validEmail);
      assert Passes(CHANGE_PASSWORD[1].1[1], "new_password", f, validEmail);
      assert Passes(CHANGE_PASSWORD[2].1[1], "confirm_new_password", f, validEmail);
    }
  }

  /** The product form. Numbers are `None` when the field was missing or did
      not parse; `picture` is the name of the uploaded file as the browser
      sent it, `None` when no file was attached. */
  datatype ShopItemsForm = ShopItemsForm(
    name: string,
    currentPrice: Option<real>,
    previousPrice: Option<real>,
    inStock: Option<int>,
    picture: Option<string>,
    flashSale: bool)

  /** Required number fields reject a missing value and also zero, which
      the required-data check treats as no data. */
  predicate NumberGiven(x: Option<real>) {
    x.Some? && x.value != 0.0
  }

  predicate CountGiven(x: Option<int>) {
    x.Some? && x.value != 0
  }

  /** The required-file check: an upload whose file name is not empty. */
  predicate FileGiven(x: Option<string>) {
    x.Some? && |x.value| > 0
  }

  /** Name, both prices, stock and picture are required; the sale flag is
      not. A required number given as zero is treated as missing. */
  predicate ShopItemsValid(f: ShopItemsForm)
    ensures ShopItemsValid(f) ==>
      f.currentPrice.Some? && f.previousPrice.Some? && f.inStock.Some? && f.picture.Some? && |f.name| > 0
    ensures f.currentPrice == Some(0.0) || f.previousPrice == Some(0.0) || f.inStock == Some(0) ==> !ShopItemsValid(f)
  {
    HasContent(f.name) && NumberGiven(f.currentPrice) && NumberGiven(f.previousPrice)
      && CountGiven(f.inStock) && FileGiven(f.picture)
  }

  /** Every valid product form has all five required values, and the sale
      flag never decides validity. */
  lemma ShopItemsValidMeans(f: ShopItemsForm)
    ensures ShopItemsValid(f) ==>
      f.currentPrice.Some? && f.previousPrice.Some? && f.inStock.Some? && f.picture.Some? && |f.name| > 0
    ensures ShopItemsValid(f) == ShopItemsValid(f.(flashSale := !f.flashSale))
    ensures f.inStock == Some(0) ==> !ShopItemsValid(f)
  {
  }

  /** The statuses an administrator can choose for an order. */
  datatype OrderStatus = Pending | Accepted | OutForDelivery | Delivered | Canceled {
    function Label(): string {
      match this
      case Pending => "Pending"
      case Accepted => "Accepted"
      case OutForDelivery => "Out for delivery"
      case Delivered => "Delivered"
      case Canceled => "Canceled"
    }
  }

  /** The choice list of the order form, in display order. */
  const STATUS_CHOICES: seq<string> := ["Pending", "Accepted", "Out for delivery", "Delivered", "Canceled"]

  /** Reads a submitted choice back as a status; anything off the list is `None`. */
  function ParseStatus(s: string): (r: Option<OrderStatus>)
    ensures r.Some? <==> s in STATUS_CHOICES
    ensures r.Some? ==> r.value.Label() == s
  {
    if s == "Pending" then Some(Pending)
    else if s == "Accepted" then Some(Accepted)
    else if s == "Out for delivery" then Some(OutForDelivery)
    else if s == "Delivered" then Some(Delivered)
    else if s == "Canceled" then Some(Canceled)
    else None
  }

  /** Every status survives a trip through its label, and labels are on the list. */
  lemma StatusRoundTrip(st: OrderStatus)
    ensures ParseStatus(st.Label()) == Some(st)
    ensures st.Label() in STATUS_CHOICES
  {
  }

  /** The order form is valid exactly when the chosen status is on the list. */
  predicate OrdersFormValid(status: string)
    ensures OrdersFormValid(status) <==> ParseStatus(status).Some?
    ensures OrdersFormValid(status) ==> status != "Paid"
  {
    status in STATUS_CHOICES
  }
}

=== FILE: models.dfy ===
/** The four entity tables of the storefront (Customer, Product, Cart line,
    Order), their column defaults and nullability, the store that holds them,
    and the outcome of a request handler.

    Prices are `real` (the database column is a binary float; rounding is
    not modelled). Timestamps are plain integers supplied by the caller.
    Password hashing is a parameter `hash`: a stored credential `h` checks
    against a plaintext `p` exactly when `h == hash(p)`. */
module Models {
  import opened Tables

  /** The customer whose id is 1 is the one administrator. */
  const ADMIN_ID: int := 1

  /** Column defaults. */
  const CART_QUANTITY_DEFAULT: int := 0
  const IN_STOCK_DEFAULT: int := 0
  const FLASH_SALE_DEFAULT: bool := false

  /** `username`, `email` and `password` are NOT NULL; `email` is unique
      across the table (see `EmailsUnique`). */
  datatype Customer = Customer(username: string, email: string, password: string, dateJoined: int)

  /** `description` and `product_picture` are nullable; the name and both
      prices are not. */
  datatype Product = Product(
    name: string,
    description: Option<string>,
    currentPrice: real,
    previousPrice: real,
    picture: Option<string>,
    inStock: int,
    flashSale: bool,
    dateAdded: int)

  /** A cart line: a quantity of one product in one customer's cart. Both
      links are NOT NULL foreign keys. */
  datatype CartLine = CartLine(quantity: int, customer: int, product: int)

  /** An order row: the captured price, the payment reference, the quantity,
      a free-text status and both links, all NOT NULL. The quantity column
      defaults to 1, but every order is written with an explicit quantity. */
  datatype Order = Order(price: real, paymentId: string, quantity: int, status: string, customer: int, product: int)

  datatype Store = Store(
    customers: Table<Customer>,
    products: Table<Product>,
    carts: Table<CartLine>,
    orders: Table<Order>)

  /** Why a request did not complete normally.
      NotFound: the not-found page (an aborted lookup, or the admin gate).
      Crash: an exception nothing catches, answered with a server error;
             whatever was not yet committed is discarded.
      Rejected: a caught failure, reported to the user with `message`. */
  datatype Error = NotFound | Crash | Rejected(message: string)

  datatype Outcome<+T> = Ok(value: T) | Fail(error: Error)

  /** A handler's effect: the store after the request, and its outcome. */
  datatype Step<+T> = Step(store: Store, out: Outcome<T>)

  /** A new cart line as the `Cart()` constructor makes it, before any
      field is assigned. */
  function NewCartLine(customer: int, product: int): (l: CartLine)
    ensures l.quantity == 0 && l.customer == customer && l.product == product
  {
    CartLine(CART_QUANTITY_DEFAULT, customer, product)
  }

  /** A new product as the `Product()` constructor makes it from the
      required columns: no description, no picture, nothing in stock, not
      on flash sale, stamped with `now`. */
  function NewProduct(name: string, currentPrice: real, previousPrice: real, now: int): (p: Product)
    ensures p.name == name && p.currentPrice == currentPrice && p.previousPrice == previousPrice
    ensures p.description == None && p.picture == None
    ensures p.inStock == 0 && !p.flashSale && p.dateAdded == now
  {
    Product(name, None, currentPrice, previousPrice, None, IN_STOCK_DEFAULT, FLASH_SALE_DEFAULT, now)
  }

  /** `Customer.verify_password`: the stored hash checks against `password`. */
  predicate VerifyPassword(c: Customer, password: string, hash: string -> string) {
    c.password == hash(password)
  }

  /** A stored hash made from `stored` checks exactly against the passwords
      that hash alike, and always against `stored` itself. */
  lemma VerifyPasswordStored(c: Customer, stored: string, password: string, hash: string -> string)
    requires c.password == hash(stored)
    ensures VerifyPassword(c, stored, hash)
    ensures VerifyPassword(c, password, hash) <==> hash(password) == hash(stored)
  {
  }

  predicate IsAdmin(actor: int) {
    actor == ADMIN_ID
  }

  /** No two customers share an email address. */
  predicate EmailsUnique(s: Store) {
    forall a, b :: a in s.customers.rows && b in s.customers.rows && a != b ==>
      s.customers.rows[a].email != s.customers.rows[b].email
  }

  /** At most one cart line per (customer, product). */
  predicate OneLinePerProduct(s: Store) {
    forall a, b :: a in s.carts.rows && b in s.carts.rows && a != b ==>
      s.carts.rows[a].customer != s.carts.rows[b].customer ||
      s.carts.rows[a].product != s.carts.rows[b].product
  }

  /** Every cart line and order refers to an existing customer and product. */
  predicate LinksResolve(s: Store) {
    && (forall k :: k in s.carts.rows ==>
          s.carts.rows[k].customer in s.customers.rows && s.carts.rows[k].product in s.products.rows)
    && (forall k :: k in s.orders.rows ==>
          s.orders.rows[k].customer in s.customers.rows && s.orders.rows[k].product in s.products.rows)
  }

  /** The consistency every handler keeps. */
  predicate Valid(s: Store) {
    && s.customers.Valid() && s.products.Valid() && s.carts.Valid() && s.orders.Valid()
    && EmailsUnique(s)
    && OneLinePerProduct(s)
    && LinksResolve(s)
  }

  /** Row filters, one per `filter_by` the handlers issue. */
  function OwnedBy(c: int): CartLine -> bool {
    (l: CartLine) => l.customer == c
  }

  function OfProduct(p: int): CartLine -> bool {
    (l: CartLine) => l.product == p
  }

  function LineFor(c: int, p: int): CartLine -> bool {
    (l: CartLine) => l.customer == c && l.product == p
  }

  function PlacedBy(c: int): Order -> bool {
    (o: Order) => o.customer == c
  }

  function WithEmail(e: string): Customer -> bool {
    (u: Customer) => u.email == e
  }

  /** The cart lines of customer `c`, in query order. */
  function LinesOf(s: Store, c: int): (ids: seq<int>)
    ensures forall i :: 0 <= i < |ids| ==> ids[i] in s.carts.rows && s.carts.rows[ids[i]].customer == c
  {
    All(s.carts, OwnedBy(c))
  }

  /** `LinesOf` lists every line of `c` and nothing else. */
  lemma LinesOfExactly(s: Store, c: int, k: int)
    requires s.carts.Valid()
    ensures k in LinesOf(s, c) <==> k in s.carts.rows && s.carts.rows[k].customer == c
  {
    AllExactly(s.carts, OwnedBy(c), k);
  }
}

=== FILE: tables.dfy ===
/** Row tables keyed by an auto-incremented integer primary key, and the
    ordered queries the request handlers run over them.

    A query such as `Cart.query.filter_by(customer_link=c).all()` has no
    ORDER BY clause, so the database promises no order; the model assumes
    ascending primary key. It also assumes keys come from a counter that
    never hands a key out twice. */
module Tables {

  datatype Option<+T> = None | Some(value: T)

  /** A table: the rows by primary key, and the key the database hands out
      to the next inserted row. */
  datatype Table<T> = Table(rows: map<int, T>, next: int) {

    /** Every key in use was handed out earlier, and keys start at 1. */
    predicate Valid() {
      next >= 1 && forall k :: k in rows ==> 1 <= k < next
    }

    /** Adds `v` under the key `next`; the counter moves on by one. */
    function Insert(v: T): (r: Table<T>)
      ensures r.rows.Keys == rows.Keys + {next}
      ensures r.rows[next] == v
      ensures forall k :: k in rows && k != next ==> r.rows[k] == rows[k]
      ensures Valid() ==> r.Valid() && next !in rows
    {
      Table(rows[next := v], next + 1)
    }

    /** Removes the row with key `k`, if any; keys are never reused. */
    function Delete(k: int): (r: Table<T>)
      ensures r.rows.Keys == rows.Keys - {k}
      ensures forall j :: j in r.rows ==> r.rows[j] == rows[j]
      ensures Valid() ==> r.Valid()
    {
      Table(rows - {k}, next)
    }

    /** Removes every row whose key is in `ks`. */
    function DeleteKeys(ks: set<int>): (r: Table<T>)
      ensures r.rows.Keys == rows.Keys - ks
      ensures forall j :: j in r.rows ==> r.rows[j] == rows[j]
      ensures Valid() ==> r.Valid()
    {
      Table(rows - ks, next)
    }

    /** Replaces the row with key `k`, which must exist. */
    function Put(k: int, v: T): (r: Table<T>)
      requires k in rows
      ensures r.rows.Keys == rows.Keys
      ensures r.rows[k] == v
      ensures forall j :: j in rows && j != k ==> r.rows[j] == rows[j]
      ensures Valid() ==> r.Valid()
    {
      Table(rows[k := v], next)
    }
  }

  /** Whether the row with key `k` exists and satisfies the filter. */
  predicate Picks<T>(m: map<int, T>, keep: T -> bool, k: int) {
    k in m && keep(m[k])
  }

  /** The keys in [lo, hi) whose rows satisfy `keep`, in ascending order. */
  function Select<T>(m: map<int, T>, keep: T -> bool, lo: int, hi: int): (ids: seq<int>)
    decreases hi - lo
    ensures forall i :: 0 <= i < |ids| ==> lo <= ids[i] < hi && Picks(m, keep, ids[i])
  {
    if lo >= hi then []
    else if Picks(m, keep, lo) then [lo] + Select(m, keep, lo + 1, hi)
    else Select(m, keep, lo + 1, hi)
  }

  /** `Select` lists keys in strictly ascending order. */
  lemma {:induction false} SelectIncreasing<T>(m: map<int, T>, keep: T -> bool, lo: int, hi: int)
    ensures forall i, j :: 0 <= i < j < |Select(m, keep, lo, hi)| ==> Select(m, keep, lo, hi)[i] < Select(m, keep, lo, hi)[j]
    decreases hi - lo
  {
    if lo < hi {
      SelectIncreasing(m, keep, lo + 1, hi);
      var rest := Select(m, keep, lo + 1, hi);
      assert forall i, j :: 0 <= i < j < |rest| ==> rest[i] < rest[j];
      assert forall j :: 0 <= j < |rest| ==> lo < rest[j];
      if Picks(m, keep, lo) {
        var ids := [lo] + rest;
        assert Select(m, keep, lo, hi) == ids;
        forall i, j | 0 <= i < j < |ids|
          ensures ids[i] < ids[j]
        {
          assert ids[j] == rest[j - 1];
          if i > 0 {
            assert ids[i] == rest[i - 1];
          }
        }
      } else {
        assert Select(m, keep, lo, hi) == rest;
      }
    }
  }

  /** Every key of the table whose row satisfies `keep`, in ascending order. */
  function All<T>(t: Table<T>, keep: T -> bool): seq<int> {
    Select(t.rows, keep, 1, t.next)
  }

  /** `Select` misses nothing: every picked key of the range is listed. */
  lemma {:induction false} SelectComplete<T>(m: map<int, T>, keep: T -> bool, lo: int, hi: int, k: int)
    requires lo <= k < hi && Picks(m, keep, k)
    ensures k in Select(m, keep, lo, hi)
    decreases hi - lo
  {
    if k != lo {
      SelectComplete(m, keep, lo + 1, hi, k);
    }
  }

  /** On a valid table, `All` lists exactly the keys whose rows satisfy `keep`. */
  lemma AllExactly<T>(t: Table<T>, keep: T -> bool, k: int)
    requires t.Valid()
    ensures k in All(t, keep) <==> Picks(t.rows, keep, k)
  {
    if Picks(t.rows, keep, k) {
      SelectComplete(t.rows, keep, 1, t.next, k);
    }
  }

  /** On a valid table, `All` lists every key whose row satisfies `keep`. */
  lemma AllComplete<T>(t: Table<T>, keep: T -> bool)
    ensures t.Valid() ==> forall k :: Picks(t.rows, keep, k) ==> k in All(t, keep)
  {
    if t.Valid() {
      forall k | Picks(t.rows, keep, k)
        ensures k in All(t, keep)
      {
        SelectComplete(t.rows, keep, 1, t.next, k);
      }
    }
  }

  /** Inserts `vs` one after another: `vs[i]` gets the key `t.next + i`. */
  function InsertAll<T>(t: Table<T>, vs: seq<T>): (r: Table<T>)
    decreases |vs|
    ensures r.next == t.next + |vs|
    ensures forall k :: k in r.rows <==> k in t.rows || t.next <= k < t.next + |vs|
  {
    if vs == [] then t
    else
      InsertAll(t, vs[..|vs| - 1]).Insert(vs[|vs| - 1])
  }

  /** What `InsertAll` leaves in the table: the new rows at consecutive keys
      from `t.next`, and every old row outside that range as it was. */
  lemma {:induction false} InsertAllRows<T>(t: Table<T>, vs: seq<T>)
    decreases |vs|
    ensures forall i :: 0 <= i < |vs| ==> t.next + i in InsertAll(t, vs).rows && InsertAll(t, vs).rows[t.next + i] == vs[i]
    ensures forall k :: k in t.rows && !(t.next <= k < t.next + |vs|) ==> InsertAll(t, vs).rows[k] == t.rows[k]
    ensures t.Valid() ==> InsertAll(t, vs).Valid()
  {
    if vs != [] {
      var n := |vs| - 1;
      InsertAllRows(t, vs[..n]);
      var p := InsertAll(t, vs[..n]);
      var r := InsertAll(t, vs);
      assert r == p.Insert(vs[n]);
      forall i | 0 <= i < |vs|
        ensures t.next + i in r.rows && r.rows[t.next + i] == vs[i]
      {
        if i < n {
          assert vs[..n][i] == vs[i];
          assert t.next + i in p.rows && p.rows[t.next + i] == vs[i];
          assert t.next + i != p.next;
        } else {
          assert t.next + i == p.next;
        }
      }
    }
  }

  /** The row `InsertAll` stores for `vs[i]`. */
  lemma {:induction false} InsertAllAt<T>(t: Table<T>, vs: seq<T>, i: int)
    requires 0 <= i < |vs|
    ensures t.next + i in InsertAll(t, vs).rows && InsertAll(t, vs).rows[t.next + i] == vs[i]
    decreases |vs|
  {
    var n := |vs| - 1;
    var p := InsertAll(t, vs[..n]);
    assert InsertAll(t, vs) == p.Insert(vs[n]);
    if i < n {
      InsertAllAt(t, vs[..n], i);
      assert vs[..n][i] == vs[i];
    }
  }

  /** A range with no picked key selects nothing. */
  lemma {:induction false} SelectNone<T>(m: map<int, T>, keep: T -> bool, lo: int, hi: int)
    requires forall k :: lo <= k < hi ==> !Picks(m, keep, k)
    ensures Select(m, keep, lo, hi) == []
    decreases hi - lo
  {
    if lo < hi {
      SelectNone(m, keep, lo + 1, hi);
    }
  }

  /** The `n` consecutive keys from `lo`. */
  function Keys(lo: int, n: nat): (ks: seq<int>)
    ensures |ks| == n && forall i :: 0 <= i < n ==> ks[i] == lo + i
  {
    seq(n, i => lo + i)
  }

  /** Two filtered maps that pick the same keys in [lo, hi) select the same list. */
  lemma {:induction false} SelectFrame<T>(m: map<int, T>, keep: T -> bool, m': map<int, T>, keep': T -> bool, lo: int, hi: int)
    requires forall k :: lo <= k < hi ==> Picks(m, keep, k) == Picks(m', keep', k)
    ensures Select(m, keep, lo, hi) == Select(m', keep', lo, hi)
    decreases hi - lo
  {
    if lo < hi {
      SelectFrame(m, keep, m', keep', lo + 1, hi);
    }
  }

  /** Widening the range by one key at the top appends that key when it is picked. */
  lemma {:induction false} SelectExtend<T>(m: map<int, T>, keep: T -> bool, lo: int, hi: int)
    requires lo <= hi
    ensures Select(m, keep, lo, hi + 1) == Select(m, keep, lo, hi) + (if Picks(m, keep, hi) then [hi] else [])
    decreases hi - lo
  {
    if lo < hi {
      SelectExtend(m, keep, lo + 1, hi);
    }
  }
}

=== FILE: views.dfy ===
/** The customer-facing handlers: adding to the cart, the cart page, the
    quantity buttons, removal, building the checkout line items, recording a
    paid cart as orders, and the order history.

    The acting customer is an explicit parameter `actor` (the logged-in
    customer's id). A failed commit inside a handler that catches it is the
    input `commitOk == false`. */
module Views {
  import opened Tables
  import opened Models

  /** The shipping fee the cart page adds to the amount. */
  const CART_PAGE_SHIPPING: real := 100.0
  /** The shipping fee the JSON answers of the quantity buttons and of
      removal add to the amount (not the same as the cart page's). */
  const CART_JSON_SHIPPING: real := 200.0
  /** Shown in place of a missing or empty product description. */
  const NO_DESCRIPTION: string := "NO Description Available"
  const CURRENCY: string := "usd"
  /** The status every order is created with. */
  const PAID: string := "Paid"

  // ---------------------------------------------------------------------
  // Amounts

  /** Every listed line exists and its product is in the catalogue, so its
      price can be read without failing. */
  predicate Priced(s: Store, ids: seq<int>) {
    forall i :: 0 <= i < |ids| ==> ids[i] in s.carts.rows && s.carts.rows[ids[i]].product in s.products.rows
  }

  /** Current price of the line's product times the line's quantity. */
  function LineTotal(s: Store, k: int): real
    requires k in s.carts.rows && s.carts.rows[k].product in s.products.rows
  {
    s.products.rows[s.carts.rows[k].product].currentPrice * s.carts.rows[k].quantity as real
  }

  /** The sum of the line totals of `ids`. */
  function Amount(s: Store, ids: seq<int>): real
    requires Priced(s, ids)
    decreases |ids|
  {
    if ids == [] then 0.0 else LineTotal(s, ids[0]) + Amount(s, ids[1..])
  }

  /** The `cart` view's loop: the running amount starts at 0 and each line,
      in query order, adds its product's current price times its quantity. */
  method SumCart(s: Store, ids: seq<int>) returns (amount: real)
    requires Priced(s, ids)
    ensures amount == Amount(s, ids)
  {
    amount := 0.0;
    var i := 0;
    while i < |ids|
      invariant 0 <= i <= |ids|
      invariant Priced(s, ids[..i])
      invariant amount == Amount(s, ids[..i])
    {
      var l := s.carts.rows[ids[i]];
      AmountAppend(s, ids[..i], ids[i]);
      assert ids[..i] + [ids[i]] == ids[..i + 1];
      amount := amount + s.products.rows[l.product].currentPrice * l.quantity as real;
      i := i + 1;
    }
    assert ids[..i] == ids;
  }

  /** The amount of customer `c`'s cart. */
  function CartAmount(s: Store, c: int): real
    requires Priced(s, LinesOf(s, c))
  {
    Amount(s, LinesOf(s, c))
  }

  /** Lines of non-negative quantity at non-negative prices add up to a
      non-negative amount. */
  lemma {:induction false} AmountNonNegative(s: Store, ids: seq<int>)
    requires Priced(s, ids)
    requires forall i :: 0 <= i < |ids| ==> s.carts.rows[ids[i]].quantity >= 0
    requires forall i :: 0 <= i < |ids| ==> s.products.rows[s.carts.rows[ids[i]].product].currentPrice >= 0.0
    ensures Amount(s, ids) >= 0.0
    decreases |ids|
  {
    if ids != [] {
      var l := s.carts.rows[ids[0]];
      var price := s.products.rows[l.product].currentPrice;
      assert price * l.quantity as real >= 0.0;
      AmountNonNegative(s, ids[1..]);
    }
  }

  /** A cart is never worth less than nothing, as long as no price is
      negative and no line was pressed below zero. */
  lemma CartAmountNonNegative(s: Store, c: int)
    requires Priced(s, LinesOf(s, c))
    requires forall k :: k in s.carts.rows && s.carts.rows[k].customer == c ==> s.carts.rows[k].quantity >= 0
    requires forall p :: p in s.products.rows ==> s.products.rows[p].currentPrice >= 0.0
    ensures CartAmount(s, c) >= 0.0
  {
    AmountNonNegative(s, LinesOf(s, c));
  }

  /** In a consistent store every line can be priced. */
  lemma ValidPriced(s: Store, ids: seq<int>)
    requires forall i :: 0 <= i < |ids| ==> ids[i] in s.carts.rows
    ensures LinksResolve(s) ==> Priced(s, ids)
  {
    if LinksResolve(s) {
      forall i | 0 <= i < |ids|
        ensures ids[i] in s.carts.rows && s.carts.rows[ids[i]].product in s.products.rows
      {
        var k := ids[i];
        assert k in s.carts.rows;
      }
    }
  }

  /** Lines stored alike, with the same catalogue, give the same amount. */
  lemma {:induction false} AmountSameRows(s: Store, s': Store, ids: seq<int>)
    requires s'.products == s.products && Priced(s, ids)
    requires forall i :: 0 <= i < |ids| ==> ids[i] in s'.carts.rows && s'.carts.rows[ids[i]] == s.carts.rows[ids[i]]
    ensures Priced(s', ids)
    ensures Amount(s', ids) == Amount(s, ids)
    decreases |ids|
  {
    if ids != [] {
      AmountSameRows(s, s', ids[1..]);
      assert s'.carts.rows[ids[0]] == s.carts.rows[ids[0]];
    }
  }

  /** Pricing one more line adds its total. */
  lemma {:induction false} AmountAppend(s: Store, ids: seq<int>, k: int)
    requires Priced(s, ids)
    requires k in s.carts.rows && s.carts.rows[k].product in s.products.rows
    ensures Priced(s, ids + [k])
    ensures Amount(s, ids + [k]) == Amount(s, ids) + LineTotal(s, k)
    decreases |ids|
  {
    assert forall i :: 0 <= i < |ids| ==> (ids + [k])[i] == ids[i];
    if ids != [] {
      assert (ids + [k])[1..] == ids[1..] + [k];
      AmountAppend(s, ids[1..], k);
    }
  }

  /** Changing the total of one listed line by `d`, and no other line,
      changes the amount by `d`. */
  lemma {:induction false} AmountPointChange(s: Store, s': Store, ids: seq<int>, k: int, d: real)
    requires s'.products == s.products && Priced(s, ids)
    requires forall i, j :: 0 <= i < j < |ids| ==> ids[i] < ids[j]
    requires k in ids && k in s.carts.rows && k in s'.carts.rows
    requires s'.carts.rows[k].product == s.carts.rows[k].product && s.carts.rows[k].product in s.products.rows
    requires forall i :: 0 <= i < |ids| && ids[i] != k ==> ids[i] in s'.carts.rows && s'.carts.rows[ids[i]] == s.carts.rows[ids[i]]
    requires LineTotal(s', k) == LineTotal(s, k) + d
    ensures Priced(s', ids)
    ensures Amount(s', ids) == Amount(s, ids) + d
    decreases |ids|
  {
    if ids[0] == k {
      forall i | 0 <= i < |ids[1..]|
        ensures ids[1..][i] != k
      {
        assert ids[1..][i] == ids[i + 1];
      }
      AmountSameRows(s, s', ids[1..]);
    } else {
      AmountPointChange(s, s', ids[1..], k, d);
    }
  }

  /** A line whose quantity rose by `n` totals `n` more of its price. */
  lemma LineTotalBump(s: Store, s': Store, k: int, n: int)
    requires s'.products == s.products && k in s.carts.rows && k in s'.carts.rows
    requires s.carts.rows[k].product in s.products.rows
    requires s'.carts.rows[k] == s.carts.rows[k].(quantity := s.carts.rows[k].quantity + n)
    ensures LineTotal(s', k) == LineTotal(s, k) + s.products.rows[s.carts.rows[k].product].currentPrice * n as real
  {
    var p := s.products.rows[s.carts.rows[k].product].currentPrice;
    var q := s.carts.rows[k].quantity;
    assert p * (q + n) as real == p * q as real + p * n as real;
  }

  /** Splitting the first line off a listing. */
  lemma AmountCons(s: Store, x: int, rest: seq<int>)
    requires Priced(s, [x] + rest)
    ensures x in s.carts.rows && s.carts.rows[x].product in s.products.rows
    ensures Priced(s, rest)
    ensures Amount(s, [x] + rest) == LineTotal(s, x) + Amount(s, rest)
  {
    assert ([x] + rest)[0] == x;
    assert ([x] + rest)[1..] == rest;
    assert forall i :: 0 <= i < |rest| ==> rest[i] == ([x] + rest)[i + 1];
  }

  /** Deleting line `k` from the table drops its total from the amount of
      any filtered listing over a range that contains it. */
  lemma {:induction false} AmountDrop(s: Store, s': Store, keep: CartLine -> bool, lo: int, hi: int, k: int)
    requires s'.carts.rows == s.carts.rows - {k} && s'.products == s.products
    requires lo <= k < hi && Picks(s.carts.rows, keep, k) && s.carts.rows[k].product in s.products.rows
    requires Priced(s, Select(s.carts.rows, keep, lo, hi))
    ensures Priced(s', Select(s'.carts.rows, keep, lo, hi))
    ensures Amount(s', Select(s'.carts.rows, keep, lo, hi))
         == Amount(s, Select(s.carts.rows, keep, lo, hi)) - LineTotal(s, k)
    decreases hi - lo
  {
    var m, m' := s.carts.rows, s'.carts.rows;
    var rest := Select(m, keep, lo + 1, hi);
    var rest' := Select(m', keep, lo + 1, hi);
    if lo == k {
      assert Select(m, keep, lo, hi) == [k] + rest;
      assert Select(m', keep, lo, hi) == rest';
      SelectFrame(m, keep, m', keep, lo + 1, hi);
      DeletedElsewhere(s, s', k, rest);
      AmountDropHere(s, s', k, rest);
    } else if Picks(m, keep, lo) {
      assert Select(m, keep, lo, hi) == [lo] + rest;
      assert Select(m', keep, lo, hi) == [lo] + rest';
      AmountCons(s, lo, rest);
      AmountDrop(s, s', keep, lo + 1, hi, k);
      AmountDropPast(s, s', k, lo, rest, rest');
    } else {
      assert Select(m, keep, lo, hi) == rest;
      assert Select(m', keep, lo, hi) == rest';
      AmountDrop(s, s', keep, lo + 1, hi, k);
    }
  }

  /** The deleted line heads the listing: the rest is priced alike before
      and after. */
  lemma AmountDropHere(s: Store, s': Store, k: int, rest: seq<int>)
    requires s'.products == s.products
    requires Priced(s, [k] + rest)
    requires forall i :: 0 <= i < |rest| ==> rest[i] in s'.carts.rows && rest[i] in s.carts.rows && s'.carts.rows[rest[i]] == s.carts.rows[rest[i]]
    ensures k in s.carts.rows && s.carts.rows[k].product in s.products.rows
    ensures Priced(s', rest)
    ensures Amount(s', rest) == Amount(s, [k] + rest) - LineTotal(s, k)
  {
    AmountCons(s, k, rest);
    AmountSameRows(s, s', rest);
  }

  /** Outside the deleted key, the table after a deletion has the same rows. */
  lemma DeletedElsewhere(s: Store, s': Store, k: int, ids: seq<int>)
    requires s'.carts.rows == s.carts.rows - {k}
    requires forall i :: 0 <= i < |ids| ==> ids[i] in s.carts.rows && ids[i] != k
    ensures forall i :: 0 <= i < |ids| ==> ids[i] in s'.carts.rows && ids[i] in s.carts.rows && s'.carts.rows[ids[i]] == s.carts.rows[ids[i]]
  {
  }

  /** A line before the deleted one keeps its total. */
  lemma AmountDropPast(s: Store, s': Store, k: int, x: int, rest: seq<int>, rest': seq<int>)
    requires s'.carts.rows == s.carts.rows - {k} && s'.products == s.products && x != k
    requires x in s.carts.rows && s.carts.rows[x].product in s.products.rows
    requires k in s.carts.rows && s.carts.rows[k].product in s.products.rows
    requires Priced(s, rest) && Priced(s', rest')
    requires Amount(s', rest') == Amount(s, rest) - LineTotal(s, k)
    ensures Priced(s', [x] + rest')
    ensures Amount(s', [x] + rest') == Amount(s, [x] + rest) - LineTotal(s, k)
  {
    assert LineTotal(s', x) == LineTotal(s, x);
    AmountConsBack(s', x, rest');
    AmountConsBack(s, x, rest);
  }

  /** Prefixing a priced line to a priced listing. */
  lemma AmountConsBack(s: Store, x: int, rest: seq<int>)
    requires x in s.carts.rows && s.carts.rows[x].product in s.products.rows
    requires Priced(s, rest)
    ensures Priced(s, [x] + rest)
    ensures Amount(s, [x] + rest) == LineTotal(s, x) + Amount(s, rest)
  {
    assert ([x] + rest)[1..] == rest;
  }

  /** Raising the quantity of one of `actor`'s lines by `n`, and changing
      nothing else, raises their cart amount by `n` times that line's price. */
  lemma BumpedAmount(s: Store, s': Store, actor: int, k: int, n: int)
    requires s.carts.Valid() && LinksResolve(s) && k in s.carts.rows && s.carts.rows[k].customer == actor
    requires s'.products == s.products && s'.carts.next == s.carts.next
    requires s'.carts.rows.Keys == s.carts.rows.Keys
    requires s'.carts.rows[k] == s.carts.rows[k].(quantity := s.carts.rows[k].quantity + n)
    requires forall j :: j in s.carts.rows && j != k ==> s'.carts.rows[j] == s.carts.rows[j]
    ensures Priced(s, LinesOf(s, actor)) && Priced(s', LinesOf(s', actor))
    ensures CartAmount(s', actor) == CartAmount(s, actor) + s.products.rows[s.carts.rows[k].product].currentPrice * n as real
  {
    var ids := LinesOf(s, actor);
    ValidPriced(s, ids);
    SelectFrame(s.carts.rows, OwnedBy(actor), s'.carts.rows, OwnedBy(actor), 1, s.carts.next);
    assert LinesOf(s', actor) == ids;
    LinesOfExactly(s, actor, k);
    SelectIncreasing(s.carts.rows, OwnedBy(actor), 1, s.carts.next);
    LineTotalBump(s, s', k, n);
    AmountPointChange(s, s', ids, k, s.products.rows[s.carts.rows[k].product].currentPrice * n as real);
  }

  // ---------------------------------------------------------------------
  // Adding to the cart

  datatype CartChange = Incremented(line: int) | Created(line: int)

  /** `add_to_cart`: an unknown product is not found; a line the customer
      already has for the product gains one; otherwise a new line of
      quantity 1 is created. A failed commit is rolled back. */
  function AddToCart(s: Store, actor: int, productId: int, commitOk: bool): (r: Step<CartChange>)
    ensures r.store.customers == s.customers && r.store.products == s.products && r.store.orders == s.orders
    ensures productId !in s.products.rows ==> r == Step(s, Fail(NotFound))
    ensures r.out.Fail? ==> r.store == s
    ensures !commitOk ==> r.store == s
    ensures r.out.Ok? <==> productId in s.products.rows && commitOk
    ensures productId in s.products.rows && !commitOk ==>
      r.out == Fail(Rejected("Failed to update item in cart.")) || r.out == Fail(Rejected("Failed to add item to cart."))
  {
    if productId !in s.products.rows then Step(s, Fail(NotFound))
    else
      var existing := All(s.carts, LineFor(actor, productId));
      if |existing| > 0 then
        var k := existing[0];
        var l := s.carts.rows[k];
        if commitOk then Step(s.(carts := s.carts.Put(k, l.(quantity := l.quantity + 1))), Ok(Incremented(k)))
        else Step(s, Fail(Rejected("Failed to update item in cart.")))
      else
        var l := NewCartLine(actor, productId).(quantity := 1);
        if commitOk then Step(s.(carts := s.carts.Insert(l)), Ok(Created(s.carts.next)))
        else Step(s, Fail(Rejected("Failed to add item to cart.")))
  }

  /** When the customer already has a line for the product, that line's
      quantity rises by exactly one and no line is created or changed besides. */
  lemma AddToCartExisting(s: Store, actor: int, productId: int, k: int)
    requires Valid(s)
    requires productId in s.products.rows
    requires k in s.carts.rows && s.carts.rows[k].customer == actor && s.carts.rows[k].product == productId
    ensures var r := AddToCart(s, actor, productId, true);
      && r.out == Ok(Incremented(k))
      && r.store.carts.rows.Keys == s.carts.rows.Keys
      && r.store.carts.rows[k] == s.carts.rows[k].(quantity := s.carts.rows[k].quantity + 1)
      && (forall j :: j in s.carts.rows && j != k ==> r.store.carts.rows[j] == s.carts.rows[j])
  {
    var existing := All(s.carts, LineFor(actor, productId));
    AllExactly(s.carts, LineFor(actor, productId), k);
    assert existing[0] == k;
  }

  /** When the customer has no line for an existing product, exactly one
      line is created, under a fresh key, with quantity 1. */
  lemma AddToCartNew(s: Store, actor: int, productId: int)
    requires s.carts.Valid()
    requires productId in s.products.rows
    requires forall j :: j in s.carts.rows ==> !(s.carts.rows[j].customer == actor && s.carts.rows[j].product == productId)
    ensures var r := AddToCart(s, actor, productId, true);
      && r.out == Ok(Created(s.carts.next))
      && s.carts.next !in s.carts.rows
      && r.store.carts.rows.Keys == s.carts.rows.Keys + {s.carts.next}
      && r.store.carts.rows[s.carts.next] == CartLine(1, actor, productId)
      && (forall j :: j in s.carts.rows ==> r.store.carts.rows[j] == s.carts.rows[j])
  {
  }

  /** Adding to the cart keeps the store consistent; in particular a
      customer never ends up with two lines for one product. */
  lemma AddToCartKeepsValid(s: Store, actor: int, productId: int, commitOk: bool)
    requires Valid(s) && actor in s.customers.rows
    ensures Valid(AddToCart(s, actor, productId, commitOk).store)
  {
    var r := AddToCart(s, actor, productId, commitOk);
    if productId in s.products.rows && commitOk {
      var existing := All(s.carts, LineFor(actor, productId));
      if |existing| == 0 {
        forall j | j in s.carts.rows
          ensures !(s.carts.rows[j].customer == actor && s.carts.rows[j].product == productId)
        {
          AllExactly(s.carts, LineFor(actor, productId), j);
        }
      }
    }
  }

  /** Adding a product the customer already has in the cart raises the cart
      amount by exactly the product's current price. */
  lemma AddToCartAmountExisting(s: Store, actor: int, productId: int, k: int)
    requires Valid(s) && actor in s.customers.rows && productId in s.products.rows
    requires k in s.carts.rows && s.carts.rows[k].customer == actor && s.carts.rows[k].product == productId
    ensures var s' := AddToCart(s, actor, productId, true).store;
      && Priced(s, LinesOf(s, actor)) && Priced(s', LinesOf(s', actor))
      && CartAmount(s', actor) == CartAmount(s, actor) + s.products.rows[productId].currentPrice
  {
    var s' := AddToCart(s, actor, productId, true).store;
    AddToCartExisting(s, actor, productId, k);
    BumpedAmount(s, s', actor, k, 1);
  }

  /** Adding a product the customer does not have in the cart raises the
      cart amount by exactly the product's current price. */
  lemma AddToCartAmountNew(s: Store, actor: int, productId: int)
    requires s.carts.Valid() && LinksResolve(s) && productId in s.products.rows
    requires forall j :: j in s.carts.rows ==> !(s.carts.rows[j].customer == actor && s.carts.rows[j].product == productId)
    ensures var s' := AddToCart(s, actor, productId, true).store;
      && Priced(s, LinesOf(s, actor)) && Priced(s', LinesOf(s', actor))
      && CartAmount(s', actor) == CartAmount(s, actor) + s.products.rows[productId].currentPrice
  {
    var s' := AddToCart(s, actor, productId, true).store;
    AddToCartNew(s, actor, productId);
    var k := s.carts.next;
    var ids := LinesOf(s, actor);
    ValidPriced(s, ids);
    var m, m' := s.carts.rows, s'.carts.rows;
    SelectFrame(m, OwnedBy(actor), m', OwnedBy(actor), 1, k);
    SelectExtend(m', OwnedBy(actor), 1, k);
    assert Picks(m', OwnedBy(actor), k);
    assert LinesOf(s', actor) == ids + [k];
    AmountSameRows(s, s', ids);
    AmountAppend(s', ids, k);
    assert LineTotal(s', k) == s.products.rows[productId].currentPrice * 1.0;
  }

  /** Adding the same product twice to a cart without it leaves one line
      for the product, of quantity 2. */
  lemma AddTwiceOneLine(s: Store, actor: int, productId: int)
    requires Valid(s) && actor in s.customers.rows && productId in s.products.rows
    requires forall j :: j in s.carts.rows ==> !(s.carts.rows[j].customer == actor && s.carts.rows[j].product == productId)
    ensures var s2 := AddToCart(AddToCart(s, actor, productId, true).store, actor, productId, true).store;
      && (forall j :: j in s2.carts.rows && s2.carts.rows[j].customer == actor && s2.carts.rows[j].product == productId ==> j == s.carts.next)
      && s.carts.next in s2.carts.rows && s2.carts.rows[s.carts.next].quantity == 2
  {
    var s1 := AddToCart(s, actor, productId, true).store;
    AddToCartNew(s, actor, productId);
    AddToCartKeepsValid(s, actor, productId, true);
    AddToCartExisting(s1, actor, productId, s.carts.next);
  }

  // ---------------------------------------------------------------------
  // The cart page

  datatype CartSummary = CartSummary(lines: seq<int>, amount: real, total: real)

  /** `cart`: the customer's lines with their amount, and the total with the
      cart page's shipping fee. A line whose product is gone makes the page
      fail. */
  function CartView(s: Store, actor: int): (r: Outcome<CartSummary>)
    ensures LinksResolve(s) ==> r.Ok?
    ensures r.Fail? ==> (r.error == Crash &&
      exists i :: 0 <= i < |LinesOf(s, actor)| && s.carts.rows[LinesOf(s, actor)[i]].product !in s.products.rows)
    ensures r.Ok? ==> r.value.total == r.value.amount + CART_PAGE_SHIPPING
    ensures r.Ok? ==> forall i :: 0 <= i < |r.value.lines| ==>
      r.value.lines[i] in s.carts.rows && s.carts.rows[r.value.lines[i]].customer == actor
  {
    var ids := LinesOf(s, actor);
    if Priced(s, ids) then
      var amount := Amount(s, ids);
      Ok(CartSummary(ids, amount, amount + CART_PAGE_SHIPPING))
    else Fail(Crash)
  }

  /** The cart page's amount is the cart amount, and its lines are all of the
      customer's lines and nothing else. */
  lemma CartViewListsCart(s: Store, actor: int, k: int)
    requires Valid(s)
    ensures CartView(s, actor).Ok?
    ensures CartView(s, actor).value.amount == CartAmount(s, actor)
    ensures k in CartView(s, actor).value.lines <==> k in s.carts.rows && s.carts.rows[k].customer == actor
  {
    LinesOfExactly(s, actor, k);
  }

  // ---------------------------------------------------------------------
  // Quantity buttons and removal

  /** The JSON answer of the quantity buttons and of removal. */
  datatype CartJson = CartJson(quantity: int, amount: real, total: real)

  /** The amount the quantity buttons report: summed over the lines whose
      PRODUCT id equals the actor's id. */
  function ButtonAmountLines(s: Store, actor: int): seq<int> {
    All(s.carts, OfProduct(actor))
  }

  /** Changes the quantity of line `cartId` by `delta`, commits, and answers
      with the new quantity and the amount over the lines `keep` selects. */
  function Bump(s: Store, keep: CartLine -> bool, cartId: Option<int>, delta: int): (r: Step<CartJson>)
    ensures r.store.customers == s.customers && r.store.products == s.products && r.store.orders == s.orders
    ensures (cartId.None? || cartId.value !in s.carts.rows) ==> r == Step(s, Fail(Crash))
    ensures cartId.Some? && cartId.value in s.carts.rows ==>
      var k := cartId.value;
      && r.store.carts.rows.Keys == s.carts.rows.Keys
      && r.store.carts.next == s.carts.next
      && r.store.carts.rows[k] == s.carts.rows[k].(quantity := s.carts.rows[k].quantity + delta)
      && (forall j :: j in s.carts.rows && j != k ==> r.store.carts.rows[j] == s.carts.rows[j])
    ensures r.out.Ok? ==> (cartId.Some? && cartId.value in s.carts.rows &&
      r.out.value.quantity == s.carts.rows[cartId.value].quantity + delta &&
      r.out.value.total == r.out.value.amount + CART_JSON_SHIPPING)
    ensures r.out.Ok? ==> (Priced(r.store, All(r.store.carts, keep)) &&
      r.out.value.amount == Amount(r.store, All(r.store.carts, keep)))
    ensures LinksResolve(s) && cartId.Some? && cartId.value in s.carts.rows ==> r.out.Ok?
  {
    if cartId.None? || cartId.value !in s.carts.rows then Step(s, Fail(Crash))
    else
      var k := cartId.value;
      var l := s.carts.rows[k];
      var s' := s.(carts := s.carts.Put(k, l.(quantity := l.quantity + delta)));
      var ids := All(s'.carts, keep);
      if Priced(s', ids) then
        var amount := Amount(s', ids);
        Step(s', Ok(CartJson(l.quantity + delta, amount, amount + CART_JSON_SHIPPING)))
      else
        // Only an inconsistent store gets here; the lemma says so.
        ValidPriced(s', ids); Step(s', Fail(Crash))
  }

  /** `plus_cart`: one more of line `cartId`, whoever owns it. A missing
      line id fails with nothing changed. */
  function PlusCart(s: Store, actor: int, cartId: Option<int>): (r: Step<CartJson>)
    ensures (cartId.None? || cartId.value !in s.carts.rows) ==> r == Step(s, Fail(Crash))
    ensures cartId.Some? && cartId.value in s.carts.rows ==>
      var k := cartId.value;
      && r.store.carts.rows.Keys == s.carts.rows.Keys
      && r.store.carts.rows[k].quantity == s.carts.rows[k].quantity + 1
      && r.store.carts.rows[k].customer == s.carts.rows[k].customer
      && r.store.carts.rows[k].product == s.carts.rows[k].product
      && (forall j :: j in s.carts.rows && j != k ==> r.store.carts.rows[j] == s.carts.rows[j])
    ensures r.out.Ok? ==> (Priced(r.store, ButtonAmountLines(r.store, actor)) &&
      r.out.value.amount == Amount(r.store, ButtonAmountLines(r.store, actor)))
  {
    Bump(s, OfProduct(actor), cartId, 1)
  }

  /** `minus_cart`: one fewer of line `cartId`, whoever owns it, with no lower
      bound: a quantity of 0 becomes -1. */
  function MinusCart(s: Store, actor: int, cartId: Option<int>): (r: Step<CartJson>)
    ensures (cartId.None? || cartId.value !in s.carts.rows) ==> r == Step(s, Fail(Crash))
    ensures cartId.Some? && cartId.value in s.carts.rows ==>
      var k := cartId.value;
      && r.store.carts.rows.Keys == s.carts.rows.Keys
      && r.store.carts.rows[k].quantity == s.carts.rows[k].quantity - 1
      && r.store.carts.rows[k].customer == s.carts.rows[k].customer
      && r.store.carts.rows[k].product == s.carts.rows[k].product
      && (forall j :: j in s.carts.rows && j != k ==> r.store.carts.rows[j] == s.carts.rows[j])
    ensures r.out.Ok? ==> (Priced(r.store, ButtonAmountLines(r.store, actor)) &&
      r.out.value.amount == Amount(r.store, ButtonAmountLines(r.store, actor)))
  {
    Bump(s, OfProduct(actor), cartId, -1)
  }

  /** The quantity buttons keep the store consistent. */
  lemma BumpKeepsValid(s: Store, keep: CartLine -> bool, cartId: Option<int>, delta: int)
    requires Valid(s)
    ensures Valid(Bump(s, keep, cartId, delta).store)
  {
  }

  /** When the actor presses plus on their own line, their cart amount rises
      by that product's price. */
  lemma PlusCartRaisesCartAmount(s: Store, actor: int, k: int)
    requires s.carts.Valid() && LinksResolve(s) && k in s.carts.rows && s.carts.rows[k].customer == actor
    ensures var s' := PlusCart(s, actor, Some(k)).store;
      && Priced(s, LinesOf(s, actor)) && Priced(s', LinesOf(s', actor))
      && CartAmount(s', actor) == CartAmount(s, actor) + s.products.rows[s.carts.rows[k].product].currentPrice
  {
    BumpedAmount(s, PlusCart(s, actor, Some(k)).store, actor, k, 1);
  }

  /** When the actor presses minus on their own line, their cart amount
      falls by that product's price. */
  lemma MinusCartLowersCartAmount(s: Store, actor: int, k: int)
    requires s.carts.Valid() && LinksResolve(s) && k in s.carts.rows && s.carts.rows[k].customer == actor
    ensures var s' := MinusCart(s, actor, Some(k)).store;
      && Priced(s, LinesOf(s, actor)) && Priced(s', LinesOf(s', actor))
      && CartAmount(s', actor) == CartAmount(s, actor) - s.products.rows[s.carts.rows[k].product].currentPrice
  {
    BumpedAmount(s, MinusCart(s, actor, Some(k)).store, actor, k, -1);
  }

  /** Pressing minus on a line of quantity 0 leaves it at -1. */
  lemma MinusCartBelowZero(s: Store, actor: int, k: int)
    requires k in s.carts.rows && s.carts.rows[k].quantity == 0
    ensures MinusCart(s, actor, Some(k)).store.carts.rows[k].quantity == -1
  {
  }

  /** `plus_cart` as intended: the reported amount is summed over the
      actor's own lines. */
  function PlusCartFixed(s: Store, actor: int, cartId: Option<int>): (r: Step<CartJson>)
    ensures (cartId.None? || cartId.value !in s.carts.rows) ==> r == Step(s, Fail(Crash))
    ensures r.store == PlusCart(s, actor, cartId).store
    ensures r.out.Ok? ==> (Priced(r.store, LinesOf(r.store, actor)) &&
      r.out.value.amount == CartAmount(r.store, actor))
  {
    Bump(s, OwnedBy(actor), cartId, 1)
  }

  /** `minus_cart` as intended: the reported amount is summed over the
      actor's own lines. */
  function MinusCartFixed(s: Store, actor: int, cartId: Option<int>): (r: Step<CartJson>)
    ensures (cartId.None? || cartId.value !in s.carts.rows) ==> r == Step(s, Fail(Crash))
    ensures r.store == MinusCart(s, actor, cartId).store
    ensures r.out.Ok? ==> (Priced(r.store, LinesOf(r.store, actor)) &&
      r.out.value.amount == CartAmount(r.store, actor))
  {
    Bump(s, OwnedBy(actor), cartId, -1)
  }

  /** With the corrected buttons, pressing plus on one's own line reports
      the new cart amount, which is the old one plus the product's price. */
  lemma PlusCartFixedReportsCart(s: Store, actor: int, k: int)
    requires s.carts.Valid() && LinksResolve(s) && k in s.carts.rows && s.carts.rows[k].customer == actor
    ensures var r := PlusCartFixed(s, actor, Some(k));
      && r.out.Ok? && Priced(s, LinesOf(s, actor))
      && r.out.value.amount == CartAmount(s, actor) + s.products.rows[s.carts.rows[k].product].currentPrice
      && r.out.value.total == r.out.value.amount + CART_JSON_SHIPPING
  {
    PlusCartRaisesCartAmount(s, actor, k);
  }

  /** A two-customer store: customer 1 has one of product 2 (price 5) in
      line 2; customer 2 has three of product 1 (price 10) in line 1. */
  function ButtonsExample(): (s: Store)
    ensures Valid(s)
  {
    var customers := Table(map[1 := Customer("ann", "ann@example.com", "h1", 0), 2 := Customer("bob", "bob@example.com", "h2", 0)], 3);
    var products := Table(map[1 := NewProduct("lamp", 10.0, 12.0, 0), 2 := NewProduct("mug", 5.0, 6.0, 0)], 3);
    var carts := Table(map[1 := CartLine(3, 2, 1), 2 := CartLine(1, 1, 2)], 3);
    Store(customers, products, carts, Table(map[], 1))
  }

  /** The example store after customer 1 pressed plus on line 2. */
  function ButtonsExamplePlused(): Store {
    ButtonsExample().(carts := Table(map[1 := CartLine(3, 2, 1), 2 := CartLine(2, 1, 2)], 3))
  }

  /** In the pressed store, the lines of product 1 are worth 30 and the
      lines of customer 1 are worth 10. */
  lemma ButtonsExampleAmounts()
    ensures Priced(ButtonsExamplePlused(), ButtonAmountLines(ButtonsExamplePlused(), 1))
    ensures Amount(ButtonsExamplePlused(), ButtonAmountLines(ButtonsExamplePlused(), 1)) == 30.0
    ensures Priced(ButtonsExamplePlused(), LinesOf(ButtonsExamplePlused(), 1))
    ensures CartAmount(ButtonsExamplePlused(), 1) == 10.0
  {
    var s := ButtonsExamplePlused();
    var m := s.carts.rows;
    assert Select(m, OfProduct(1), 2, 3) == [];
    assert Select(m, OfProduct(1), 1, 3) == [1];
    assert Amount(s, [1]) == 30.0 by {
      assert Amount(s, [1][1..]) == 0.0;
    }
    assert Select(m, OwnedBy(1), 2, 3) == [2];
    assert Select(m, OwnedBy(1), 1, 3) == [2];
    assert Amount(s, [2]) == 10.0 by {
      assert Amount(s, [2][1..]) == 0.0;
    }
  }

  /** As written, customer 1 pressing plus on their own line is told an
      amount of 30 (customer 2's line of product 1, because the customer's
      id 1 is matched against product ids), while their cart is worth 10. */
  lemma PlusCartWrongAmount()
    ensures var r := PlusCart(ButtonsExample(), 1, Some(2));
      && r.out.Ok? && r.out.value.amount == 30.0 && r.out.value.total == 230.0
      && Priced(r.store, LinesOf(r.store, 1)) && CartAmount(r.store, 1) == 10.0
  {
    var r := PlusCart(ButtonsExample(), 1, Some(2));
    assert r.store.carts.rows == ButtonsExamplePlused().carts.rows;
    assert r.store == ButtonsExamplePlused();
    ButtonsExampleAmounts();
  }

  /** `remove_item`: deletes line `id` when it exists and belongs to the
      actor, then answers with the removed quantity and the actor's remaining
      amount. When the line is missing or someone else's, nothing is deleted
      and the answer fails, because the quantity it reports was never set. */
  function RemoveItem(s: Store, actor: int, id: int): (r: Step<CartJson>)
    ensures r.store.customers == s.customers && r.store.products == s.products && r.store.orders == s.orders
    ensures !(id in s.carts.rows && s.carts.rows[id].customer == actor) ==> r == Step(s, Fail(Crash))
    ensures id in s.carts.rows && s.carts.rows[id].customer == actor ==>
      && r.store.carts.rows.Keys == s.carts.rows.Keys - {id}
      && (forall j :: j in r.store.carts.rows ==> r.store.carts.rows[j] == s.carts.rows[j])
    ensures r.out.Ok? ==> (id in s.carts.rows &&
      r.out.value.quantity == s.carts.rows[id].quantity &&
      r.out.value.total == r.out.value.amount + CART_JSON_SHIPPING)
  {
    if id in s.carts.rows && s.carts.rows[id].customer == actor then
      var quantity := s.carts.rows[id].quantity;
      var s' := s.(carts := s.carts.Delete(id));
      var ids := LinesOf(s', actor);
      if Priced(s', ids) then
        var amount := Amount(s', ids);
        Step(s', Ok(CartJson(quantity, amount, amount + CART_JSON_SHIPPING)))
      else Step(s', Fail(Crash))
    else Step(s, Fail(Crash))
  }

  /** Removal never deletes another customer's line. */
  lemma RemoveItemSparesOthers(s: Store, actor: int, id: int, k: int)
    requires k in s.carts.rows && s.carts.rows[k].customer != actor
    ensures k in RemoveItem(s, actor, id).store.carts.rows
    ensures RemoveItem(s, actor, id).store.carts.rows[k] == s.carts.rows[k]
  {
  }

  /** Removal keeps the store consistent. */
  lemma RemoveItemKeepsValid(s: Store, actor: int, id: int)
    requires Valid(s)
    ensures Valid(RemoveItem(s, actor, id).store)
  {
  }

  /** Removing one's own line lowers the cart amount by that line's total,
      and the amount reported is the new cart amount. */
  lemma RemoveItemAmount(s: Store, actor: int, id: int)
    requires Valid(s) && id in s.carts.rows && s.carts.rows[id].customer == actor
    ensures var r := RemoveItem(s, actor, id);
      && Priced(s, LinesOf(s, actor)) && Priced(r.store, LinesOf(r.store, actor))
      && CartAmount(r.store, actor) == CartAmount(s, actor) - LineTotal(s, id)
      && r.out.Ok? && r.out.value.amount == CartAmount(r.store, actor)
  {
    var r := RemoveItem(s, actor, id);
    RemoveItemKeepsValid(s, actor, id);
    ValidPriced(s, LinesOf(s, actor));
    ValidPriced(r.store, LinesOf(r.store, actor));
    AmountDrop(s, r.store, OwnedBy(actor), 1, s.carts.next, id);
  }

  /** As written, removing the same line twice fails the second time, with
      nothing left to delete: a double click on the remove button answers
      with a server error. */
  lemma RemoveItemTwiceFails(s: Store, actor: int, id: int)
    requires id in s.carts.rows && s.carts.rows[id].customer == actor
    ensures var r := RemoveItem(RemoveItem(s, actor, id).store, actor, id);
      r.out == Fail(Crash) && r.store == RemoveItem(s, actor, id).store
  {
  }

  /** `remove_item` as intended: a missing or foreign line is left alone
      and reported with quantity 0, together with the actor's amount. */
  function RemoveItemFixed(s: Store, actor: int, id: int): (r: Step<CartJson>)
    ensures id in s.carts.rows && s.carts.rows[id].customer == actor ==> r == RemoveItem(s, actor, id)
    ensures !(id in s.carts.rows && s.carts.rows[id].customer == actor) ==> r.store == s
    ensures LinksResolve(s) ==> r.out.Ok?
    ensures r.out.Ok? ==> (Priced(r.store, LinesOf(r.store, actor)) &&
      r.out.value.amount == CartAmount(r.store, actor) &&
      r.out.value.total == r.out.value.amount + CART_JSON_SHIPPING)
    ensures r.out.Ok? && !(id in s.carts.rows && s.carts.rows[id].customer == actor) ==> r.out.value.quantity == 0
  {
    if id in s.carts.rows && s.carts.rows[id].customer == actor then
      var r := RemoveItem(s, actor, id);
      ValidPriced(r.store, LinesOf(r.store, actor)); r
    else
      var ids := LinesOf(s, actor);
      if Priced(s, ids) then
        var amount := Amount(s, ids);
        Step(s, Ok(CartJson(0, amount, amount + CART_JSON_SHIPPING)))
      else
        ValidPriced(s, ids); Step(s, Fail(Crash))
  }

  /** With the corrected handler a repeated removal is harmless: the second
      request changes nothing and reports quantity 0 and the same amount. */
  lemma RemoveItemFixedTwice(s: Store, actor: int, id: int)
    requires Valid(s) && id in s.carts.rows && s.carts.rows[id].customer == actor
    ensures var r1 := RemoveItemFixed(s, actor, id);
      var r2 := RemoveItemFixed(r1.store, actor, id);
      && r1.out.Ok? && r2.out.Ok?
      && r2.store == r1.store
      && r1.out.value.quantity == s.carts.rows[id].quantity
      && r2.out.value == r1.out.value.(quantity := 0)
  {
    var r1 := RemoveItemFixed(s, actor, id);
    RemoveItemKeepsValid(s, actor, id);
    assert id !in r1.store.carts.rows;
  }

  // ---------------------------------------------------------------------
  // Checkout

  /** One line item of a payment session. */
  datatype LineItem = LineItem(currency: string, name: string, description: string, unitAmount: int, quantity: int)

  /** Conversion of a real to an integer, truncating toward zero. */
  function Trunc(x: real): (n: int)
    ensures 0.0 <= x ==> n as real <= x < n as real + 1.0
    ensures x < 0.0 ==> n as real - 1.0 < x <= n as real
  {
    if x >= 0.0 then x.Floor else -((-x).Floor)
  }

  /** The description shown for a product: its own when it has non-empty
      text, the placeholder otherwise. */
  function DescriptionOf(p: Product): (d: string)
    ensures p.description.Some? && p.description.value != "" ==> d == p.description.value
    ensures p.description.None? || p.description.value == "" ==> d == NO_DESCRIPTION
    ensures |d| > 0
  {
    match p.description
    case Some(text) => if text != "" then text else NO_DESCRIPTION
    case None => NO_DESCRIPTION
  }

  /** The line item for `quantity` units of `p`: priced in whole cents,
      the fraction of a cent dropped. */
  function ItemFor(p: Product, quantity: int): (item: LineItem)
    ensures item.currency == "usd" && item.name == p.name && item.quantity == quantity
    ensures p.description.Some? && p.description.value != "" ==> item.description == p.description.value
    ensures p.description.None? || p.description.value == "" ==> item.description == "NO Description Available"
    ensures 0.0 <= p.currentPrice ==>
      item.unitAmount as real <= p.currentPrice * 100.0 < item.unitAmount as real + 1.0
    ensures p.currentPrice < 0.0 ==>
      item.unitAmount as real - 1.0 < p.currentPrice * 100.0 <= item.unitAmount as real
  {
    LineItem(CURRENCY, p.name, DescriptionOf(p), Trunc(p.currentPrice * 100.0), quantity)
  }

  /** One line item per listed cart line, in order, or `None` as soon as a
      line's product is missing. */
  function BuildItems(s: Store, ids: seq<int>): (r: Option<seq<LineItem>>)
    requires forall i :: 0 <= i < |ids| ==> ids[i] in s.carts.rows
    decreases |ids|
    ensures r.Some? <==> Priced(s, ids)
    ensures r.Some? ==> |r.value| == |ids| && forall i :: 0 <= i < |ids| ==>
      r.value[i] == ItemFor(s.products.rows[s.carts.rows[ids[i]].product], s.carts.rows[ids[i]].quantity)
  {
    if ids == [] then Some([])
    else
      var l := s.carts.rows[ids[0]];
      if l.product !in s.products.rows then None
      else match BuildItems(s, ids[1..])
        case None => None
        case Some(rest) => Some([ItemFor(s.products.rows[l.product], l.quantity)] + rest)
  }

  /** `create_checkout_session` up to the payment provider: an empty cart and
      a cart with a vanished product are refused; otherwise the provider is
      handed one item per line. `providerOk` is whether the provider call
      succeeded. The store is only read. */
  function CreateCheckoutSession(s: Store, actor: int, providerOk: bool): (r: Outcome<seq<LineItem>>)
    ensures LinesOf(s, actor) == [] ==> r == Fail(Rejected("Your cart is empty!"))
    ensures LinesOf(s, actor) != [] && !Priced(s, LinesOf(s, actor)) ==>
      r == Fail(Rejected("One of your products no longer exists."))
    ensures LinesOf(s, actor) != [] && Priced(s, LinesOf(s, actor)) ==>
      (r.Ok? <==> providerOk) && (!providerOk ==> r == Fail(Rejected("Payment failed. Please contact support.")))
    ensures r.Ok? ==> providerOk && |r.value| == |LinesOf(s, actor)| > 0
    ensures r.Ok? ==> forall i :: 0 <= i < |r.value| ==>
      var l := s.carts.rows[LinesOf(s, actor)[i]];
      && l.product in s.products.rows
      && r.value[i].currency == CURRENCY
      && r.value[i].quantity == l.quantity
      && r.value[i].name == s.products.rows[l.product].name
      && r.value[i].unitAmount == Trunc(s.products.rows[l.product].currentPrice * 100.0)
      && r.value[i].description == DescriptionOf(s.products.rows[l.product])
  {
    var ids := LinesOf(s, actor);
    if |ids| == 0 then Fail(Rejected("Your cart is empty!"))
    else match BuildItems(s, ids)
      case None => Fail(Rejected("One of your products no longer exists."))
      case Some(items) =>
        if providerOk then Ok(items) else Fail(Rejected("Payment failed. Please contact support."))
  }

  /** A one-customer store whose cart holds two lamps at 10 and one mug at
      5; the mug has no description. */
  function CheckoutExample(): (s: Store)
    ensures Valid(s)
  {
    var customers := Table(map[1 := Customer("ann", "ann@example.com", "h1", 0)], 2);
    var lamp := NewProduct("lamp", 10.0, 12.0, 0).(description := Some("desk lamp"));
    var products := Table(map[1 := lamp, 2 := NewProduct("mug", 5.0, 6.0, 0)], 3);
    var carts := Table(map[1 := CartLine(2, 1, 1), 2 := CartLine(1, 1, 2)], 3);
    Store(customers, products, carts, Table(map[], 1))
  }

  /** The example cart lists line 1, then line 2. */
  lemma CheckoutExampleLines()
    ensures LinesOf(CheckoutExample(), 1) == [1, 2]
  {
    var m := CheckoutExample().carts.rows;
    assert Select(m, OwnedBy(1), 2, 3) == [2];
    assert Select(m, OwnedBy(1), 1, 3) == [1, 2];
  }

  /** The cart page shows an amount of 25 and a total of 125. */
  lemma CheckoutExampleCart()
    ensures var v := CartView(CheckoutExample(), 1);
      v.Ok? && v.value.amount == 25.0 && v.value.total == 125.0
  {
    var s := CheckoutExample();
    CheckoutExampleLines();
    assert Amount(s, [1, 2]) == 25.0 by {
      assert [1, 2][1..] == [2];
      assert Amount(s, [2]) == 5.0 by {
        assert [2][1..] == [];
      }
    }
  }

  /** The payment provider is handed the lamps at 1000 cents each and the
      mug at 500 cents with the placeholder description. */
  lemma CheckoutExampleItems()
    ensures CreateCheckoutSession(CheckoutExample(), 1, true) == Ok([
      LineItem(CURRENCY, "lamp", "desk lamp", 1000, 2),
      LineItem(CURRENCY, "mug", NO_DESCRIPTION, 500, 1)])
  {
    var s := CheckoutExample();
    CheckoutExampleLines();
    assert Trunc(10.0 * 100.0) == 1000;
    assert Trunc(5.0 * 100.0) == 500;
    var items := BuildItems(s, [1, 2]);
    assert items.Some?;
    assert items.value[0] == LineItem(CURRENCY, "lamp", "desk lamp", 1000, 2);
    assert items.value[1] == LineItem(CURRENCY, "mug", NO_DESCRIPTION, 500, 1);
    assert items.value == [LineItem(CURRENCY, "lamp", "desk lamp", 1000, 2), LineItem(CURRENCY, "mug", NO_DESCRIPTION, 500, 1)];
  }

  // ---------------------------------------------------------------------
  // Recording a paid cart

  /** The order placed for line `k`: priced at the line total, with the
      payment id, the line's quantity, the status "Paid" and both links. */
  function OrderFor(s: Store, actor: int, k: int, paymentId: string): (o: Order)
    requires k in s.carts.rows && s.carts.rows[k].product in s.products.rows
    ensures var l := s.carts.rows[k];
      && o.price == s.products.rows[l.product].currentPrice * l.quantity as real
      && o.paymentId == paymentId && o.quantity == l.quantity && o.status == "Paid"
      && o.customer == actor && o.product == l.product
  {
    var l := s.carts.rows[k];
    Order(LineTotal(s, k), paymentId, l.quantity, PAID, actor, l.product)
  }

  /** One order per listed line, in order. */
  function OrdersFor(s: Store, actor: int, ids: seq<int>, paymentId: string): (os: seq<Order>)
    requires Priced(s, ids)
    ensures |os| == |ids|
    ensures forall i :: 0 <= i < |ids| ==> os[i] == OrderFor(s, actor, ids[i], paymentId)
  {
    seq(|ids|, i requires 0 <= i < |ids| => OrderFor(s, actor, ids[i], paymentId))
  }

  /** The sum of the prices of `os`. */
  function Revenue(os: seq<Order>): real
    decreases |os|
  {
    if os == [] then 0.0 else os[0].price + Revenue(os[1..])
  }

  /** The orders built from a cart are priced at exactly the cart's amount. */
  lemma {:induction false} RevenueIsAmount(s: Store, actor: int, ids: seq<int>, paymentId: string)
    requires Priced(s, ids)
    ensures Revenue(OrdersFor(s, actor, ids, paymentId)) == Amount(s, ids)
    decreases |ids|
  {
    if ids != [] {
      var os := OrdersFor(s, actor, ids, paymentId);
      var rest := OrdersFor(s, actor, ids[1..], paymentId);
      assert forall j :: 0 <= j < |rest| ==> os[1..][j] == os[j + 1] && ids[1..][j] == ids[j + 1];
      assert os[1..] == rest;
      RevenueIsAmount(s, actor, ids[1..], paymentId);
    }
  }

  /** The order-creating body of `payment_success`, for payment `paymentId`:
      one order per cart line, then every line of the actor's cart is
      deleted, all in one commit. A line whose product is gone makes the
      request fail before anything is committed. The result lists the keys
      of the new orders. */
  function RecordPayment(s: Store, actor: int, paymentId: string): (r: Step<seq<int>>)
    ensures r.store.customers == s.customers && r.store.products == s.products
    ensures r.out.Fail? ==> r == Step(s, Fail(Crash))
    ensures r.out.Ok? <==> Priced(s, LinesOf(s, actor))
    ensures LinksResolve(s) ==> r.out.Ok?
    ensures r.out.Ok? ==> |r.out.value| == |LinesOf(s, actor)|
  {
    var ids := LinesOf(s, actor);
    if !Priced(s, ids) then Step(s, Fail(Crash))
    else
      var placed := OrdersFor(s, actor, ids, paymentId);
      var s' := s.(orders := InsertAll(s.orders, placed), carts := s.carts.DeleteKeys(set k | k in ids));
      Step(s', Ok(Keys(s.orders.next, |ids|)))
  }

  /** After a recorded payment the new orders take the consecutive keys
      from the table's counter, and the i-th new order matches the i-th cart
      line: priced at the line total, with the same payment id, the copied
      quantity, status "Paid", the actor and the line's product. Every
      earlier order is unchanged, and no other order appears. */
  lemma RecordPaymentOrders(s: Store, actor: int, paymentId: string)
    requires s.orders.Valid() && LinksResolve(s)
    ensures var r := RecordPayment(s, actor, paymentId);
      var ids := LinesOf(s, actor);
      && Priced(s, ids) && r.out.Ok? && r.out.value == Keys(s.orders.next, |ids|)
      && forall i :: 0 <= i < |ids| ==>
           && s.orders.next + i in r.store.orders.rows
           && r.store.orders.rows[s.orders.next + i] ==
                Order(LineTotal(s, ids[i]), paymentId, s.carts.rows[ids[i]].quantity, PAID, actor, s.carts.rows[ids[i]].product)
    ensures var r := RecordPayment(s, actor, paymentId);
      forall k :: k in s.orders.rows ==> k in r.store.orders.rows && r.store.orders.rows[k] == s.orders.rows[k]
    ensures var r := RecordPayment(s, actor, paymentId);
      forall k :: k in r.store.orders.rows && k !in s.orders.rows ==> k in r.out.value
  {
    var r := RecordPayment(s, actor, paymentId);
    var ids := LinesOf(s, actor);
    ValidPriced(s, ids);
    var placed := OrdersFor(s, actor, ids, paymentId);
    var t := InsertAll(s.orders, placed);
    InsertAllRows(s.orders, placed);
    assert r.store.orders == t;
    forall i | 0 <= i < |ids|
      ensures s.orders.next + i in t.rows
      ensures t.rows[s.orders.next + i] ==
                Order(LineTotal(s, ids[i]), paymentId, s.carts.rows[ids[i]].quantity, PAID, actor, s.carts.rows[ids[i]].product)
    {
      InsertedOrder(s, actor, ids, paymentId, i);
    }
    forall k | k in t.rows && k !in s.orders.rows
      ensures k in r.out.value
    {
      assert r.out.value[k - s.orders.next] == k;
    }
  }

  /** The `i`-th order inserted for a listing is built from its `i`-th line. */
  lemma InsertedOrder(s: Store, actor: int, ids: seq<int>, paymentId: string, i: int)
    requires Priced(s, ids) && 0 <= i < |ids|
    ensures var t := InsertAll(s.orders, OrdersFor(s, actor, ids, paymentId));
      var l := s.carts.rows[ids[i]];
      && s.orders.next + i in t.rows
      && t.rows[s.orders.next + i] == Order(LineTotal(s, ids[i]), paymentId, l.quantity, PAID, actor, l.product)
  {
    var placed := OrdersFor(s, actor, ids, paymentId);
    InsertAllAt(s.orders, placed, i);
  }

  /** After a recorded payment the actor's cart is empty, every other
      customer's line is untouched, and no line appears. */
  lemma RecordPaymentEmptiesCart(s: Store, actor: int, paymentId: string)
    requires s.carts.Valid() && LinksResolve(s)
    ensures RecordPayment(s, actor, paymentId).out.Ok?
    ensures LinesOf(RecordPayment(s, actor, paymentId).store, actor) == []
    ensures var r := RecordPayment(s, actor, paymentId);
      forall k :: k in s.carts.rows && s.carts.rows[k].customer != actor ==>
        k in r.store.carts.rows && r.store.carts.rows[k] == s.carts.rows[k]
    ensures var r := RecordPayment(s, actor, paymentId);
      forall k :: k in r.store.carts.rows ==> k in s.carts.rows
  {
    var r := RecordPayment(s, actor, paymentId);
    var ids := LinesOf(s, actor);
    ValidPriced(s, ids);
    forall k | k in s.carts.rows && s.carts.rows[k].customer == actor
      ensures k !in r.store.carts.rows
    {
      LinesOfExactly(s, actor, k);
    }
    SelectNone(r.store.carts.rows, OwnedBy(actor), 1, r.store.carts.next);
  }

  /** The rows of `t` under the keys `ks`, in order. */
  function RowsAt(t: Table<Order>, ks: seq<int>): (os: seq<Order>)
    requires forall i :: 0 <= i < |ks| ==> ks[i] in t.rows
    ensures |os| == |ks| && forall i :: 0 <= i < |ks| ==> os[i] == t.rows[ks[i]]
  {
    seq(|ks|, i requires 0 <= i < |ks| => t.rows[ks[i]])
  }

  /** Orders priced line by line like a listing add up to its amount. */
  lemma {:induction false} RevenueMatches(s: Store, os: seq<Order>, ids: seq<int>)
    requires Priced(s, ids) && |os| == |ids|
    requires forall i :: 0 <= i < |ids| ==> os[i].price == LineTotal(s, ids[i])
    ensures Revenue(os) == Amount(s, ids)
    decreases |ids|
  {
    if ids != [] {
      RevenueMatches(s, os[1..], ids[1..]);
    }
  }

  /** The orders a recorded payment creates are priced, in total, at the
      cart amount the customer saw. */
  lemma RecordPaymentRevenue(s: Store, actor: int, paymentId: string)
    requires s.orders.Valid() && LinksResolve(s)
    ensures var r := RecordPayment(s, actor, paymentId);
      && r.out.Ok? && Priced(s, LinesOf(s, actor))
      && (forall i :: 0 <= i < |r.out.value| ==> r.out.value[i] in r.store.orders.rows)
      && Revenue(RowsAt(r.store.orders, r.out.value)) == CartAmount(s, actor)
  {
    var r := RecordPayment(s, actor, paymentId);
    var ids := LinesOf(s, actor);
    RecordPaymentOrders(s, actor, paymentId);
    var os := RowsAt(r.store.orders, r.out.value);
    forall i | 0 <= i < |ids|
      ensures os[i].price == LineTotal(s, ids[i])
    {
      assert r.out.value[i] == s.orders.next + i;
    }
    RevenueMatches(s, os, ids);
  }

  /** A new order refers to the actor and to a product of the catalogue. */
  lemma NewOrderResolves(s: Store, actor: int, paymentId: string, k: int)
    requires s.orders.Valid() && LinksResolve(s) && actor in s.customers.rows
    requires var r := RecordPayment(s, actor, paymentId); k in r.store.orders.rows && k !in s.orders.rows
    ensures var r := RecordPayment(s, actor, paymentId);
      r.store.orders.rows[k].customer == actor && r.store.orders.rows[k].product in s.products.rows
  {
    var r := RecordPayment(s, actor, paymentId);
    var ids := LinesOf(s, actor);
    RecordPaymentOrders(s, actor, paymentId);
    var i :| 0 <= i < |r.out.value| && r.out.value[i] == k;
    assert k == s.orders.next + i && i < |ids|;
    var l := s.carts.rows[ids[i]];
    assert r.store.orders.rows[k].customer == actor && r.store.orders.rows[k].product == l.product;
  }

  /** Recording a payment keeps the store consistent. */
  lemma RecordPaymentKeepsValid(s: Store, actor: int, paymentId: string)
    requires Valid(s) && actor in s.customers.rows
    ensures Valid(RecordPayment(s, actor, paymentId).store)
  {
    var r := RecordPayment(s, actor, paymentId);
    RecordPaymentOrders(s, actor, paymentId);
    RecordPaymentEmptiesCart(s, actor, paymentId);
    InsertAllRows(s.orders, OrdersFor(s, actor, LinesOf(s, actor), paymentId));
    forall k | k in r.store.orders.rows && k !in s.orders.rows
      ensures r.store.orders.rows[k].customer in r.store.customers.rows
      ensures r.store.orders.rows[k].product in r.store.products.rows
    {
      NewOrderResolves(s, actor, paymentId, k);
    }
  }

  // ---------------------------------------------------------------------
  // The payment-success callback

  /** The query arguments of the success address the provider redirects to:
      the session token under the name `session_id`. */
  function SuccessUrlArgs(token: string): map<string, string> {
    map["session_id" := token]
  }

  /** A query argument, or the empty string when it is absent. */
  function Arg(args: map<string, string>, name: string): string {
    if name in args then args[name] else ""
  }

  /** `payment_success` as written: it reads the argument `id`, which the
      success address never carries, and when it is present the session
      lookup is given the built-in `id` function instead of the token, which
      the provider library refuses with an error. So it either renders the
      success page with nothing recorded, or fails. */
  function PaymentSuccess(s: Store, actor: int, args: map<string, string>): (r: Step<seq<int>>)
    ensures r.store == s
    ensures Arg(args, "id") == "" <==> r.out == Ok([])
    ensures Arg(args, "id") != "" ==> r.out == Fail(Crash)
  {
    if Arg(args, "id") == "" then Step(s, Ok([]))
    else Step(s, Fail(Crash))
  }

  /** The provider's own callback never records an order, whatever the cart. */
  lemma PaymentSuccessNeverRecords(s: Store, actor: int, token: string)
    ensures PaymentSuccess(s, actor, SuccessUrlArgs(token)) == Step(s, Ok([]))
  {
  }

  /** `payment_success` as intended: it reads `session_id`, looks up that
      session, and records the payment whose id the lookup returned
      (`retrieved`, or `None` when the lookup failed). */
  function PaymentSuccessFixed(s: Store, actor: int, args: map<string, string>, retrieved: Option<string>): (r: Step<seq<int>>)
    ensures Arg(args, "session_id") == "" ==> r == Step(s, Ok([]))
    ensures Arg(args, "session_id") != "" && retrieved.None? ==> r == Step(s, Fail(Crash))
    ensures Arg(args, "session_id") != "" && retrieved.Some? ==> r == RecordPayment(s, actor, retrieved.value)
  {
    var token := Arg(args, "session_id");
    if token == "" then Step(s, Ok([]))
    else if retrieved.None? then Step(s, Fail(Crash))
    else RecordPayment(s, actor, retrieved.value)
  }

  /** With the corrected callback, the provider's redirect for a paid session
      turns a non-empty cart into orders and empties it. */
  lemma PaymentSuccessFixedRecords(s: Store, actor: int, token: string, paymentId: string)
    requires Valid(s) && token != "" && LinesOf(s, actor) != []
    ensures var r := PaymentSuccessFixed(s, actor, SuccessUrlArgs(token), Some(paymentId));
      && r.out.Ok? && |r.out.value| == |LinesOf(s, actor)| > 0
      && LinesOf(r.store, actor) == []
  {
    RecordPaymentOrders(s, actor, paymentId);
    RecordPaymentEmptiesCart(s, actor, paymentId);
  }

  // ---------------------------------------------------------------------
  // Order history

  /** `orders`: the keys of the actor's orders, in query order. */
  function OrderHistory(s: Store, actor: int): (ids: seq<int>)
    ensures forall i :: 0 <= i < |ids| ==> ids[i] in s.orders.rows && s.orders.rows[ids[i]].customer == actor
    ensures s.orders.Valid() ==> forall k :: k in s.orders.rows && s.orders.rows[k].customer == actor ==> k in ids
  {
    AllComplete(s.orders, PlacedBy(actor)); All(s.orders, PlacedBy(actor))
  }
}
